=== FILE: README.md ===
# Fitness planner core in Dafny

A model of the decision logic of the fitness-planner Django application
(`mainapp`), with proofs about it.

- **BMI classification.** `get_bmi_category`, and the inline copy of it in
  `bmi_view`.
- **Metric views.** `bmi_view` records a BMI measurement and `body_fat_view`
  computes an estimate. `dashboard` charts the last seven readings and their
  trends.
- **Plan assigner.** `auto_assign_plan` derives gain or loss from the goal's
  weights, picks a level from age and BMI, and takes the first matching
  catalog entry. The `profile` view's suggestion uses the same rule.
- **Schedules.** The day-by-day schedule of `weight_gain` and `weight_loss`,
  and the per-day lookup of `user_plan_view`.
- **Goal life cycle.**
  - Intake of new goals, on the POST branches of the gain and loss pages.
  - The staff `goal_dashboard`: its pending queue and its action dispatch.
  - The admin side: the status colour, the auto-assign link, the bulk
    approve/reject actions, the one-goal auto-assign page and the list
    ordering.
- **Table properties.** The `UserGoal.goal_type` property, the choice sets
  and defaults of the models, and the per-(plan, day) uniqueness and
  ordering of the daily diet and workout rows.

Tables are sequences in primary-key order. The daily diet and workout rows
are the exception: they are held by day number, the order their model's
default ordering and `user_plan_view` read them in. A query with no order
at all (the diet plans of the gain and loss pages, read as `diets[:2]`) is
read in primary-key order too; the database does not promise that order,
and the model assumes it. A query `filter(...).first()` is
the first match over such a sequence, and `order_by('-id').first()` is the
last match. Weights, heights and BMIs are exact `real`s. Dates are whole
days counted from a fixed epoch. A view's request is a function from the
tables it reads to the tables it writes.

Modules, one file each:

| file | module | what it holds |
|---|---|---|
| wrappers.dfy | `Wrappers` | `Option`, `Result` |
| query.dfy | `Query` | first match, filter, last match, take, reverse |
| text.dfy | `Text` | ASCII `lower()` and `capitalize()` |
| models.dfy | `Models` | the models, their choice codes and defaults, daily rows |
| bmi.dfy | `Bmi` | categories and thresholds |
| metrics.dfy | `Metrics` | `bmi_view`, `body_fat_view`, `dashboard` |
| assign.dfy | `Assign` | `auto_assign_plan`, the profile suggestion |
| schedule.dfy | `Schedule` | the gain/loss schedule, `user_plan_view` |
| goals.dfy | `Goals` | goal intake and `goal_dashboard` |
| admin.dfy | `Admin` | `UserGoalAdmin` and the pending queue |
| workflow.dfy | `Workflow` | every goal-writing request, in any order |
| fixtures.dfy | `Fixtures` | the seed catalog and assigner examples |

Two points where the code and the models' declarations disagree. The model
follows the code in both.

- The `UserGoal` status choices declare only `pending`, `assigned` and
  `completed`. The views and the admin also write `approved` and
  `rejected`, so `Status` has all five values.
- Every page that shows a schedule (the plan branch of the gain and loss
  pages, and `user_plan_view`) reads only `status='assigned'`. No request
  ever writes that status, with the gain page as written or corrected;
  `Workflow.PlanPagesNeverReached` proves it. The profile page's plan
  suggestion is different: it reads the newest goal of any status
  (`Assign.ProfileSuggestion`).

## Model

| member | source | states |
|---|---|---|
| Query.First | mainapp/views.py:94-99 | `filter(...).first()`: none iff no element matches; otherwise a matching element with no match before it |
| Query.Filter | mainapp/views.py:125-126 | `filter(...)`: every element kept matches and comes from the table, every matching element is kept, and none more often than in the table |
| Query.FilterAppend | mainapp/views.py:36 | A row appended to the table is appended to the filtered view iff it matches, and the view is otherwise unchanged: the filter keeps the table's order |
| Query.FilterSame | mainapp/views.py:443 | Two row conditions that agree on every row select the same rows |
| Query.FilterEmpty | mainapp/views.py:491 | A filter is empty iff no element matches |
| Query.Last | mainapp/views.py:121 | `filter(...).order_by('-id').first()`: none iff no element matches; otherwise a matching element with no match after it |
| Query.TakeLast | mainapp/views.py:36 | `s[-n:]`: the last `min(n, len)` elements, in order |
| Query.NewestReversedIsSuffix | mainapp/views.py:36 | `order_by('-id')[:n][::-1]` is the last n rows in ascending key order |
| Models.ParseDiet | mainapp/models.py:28-32 | A stored diet code reads back iff it is one of `veg`, `nonveg`, `vegan`, and then as the value with that code |
| Models.ParseLevel | mainapp/models.py:80-84 | A stored level code reads back iff it is one of the three declared levels, as the value with that code |
| Models.ParseStatus | mainapp/models.py:105-109 | A stored status reads back iff it is one of the three declared codes or `approved` or `rejected`, which the code also writes, as the value with that code |
| Models.CodesRoundTrip | mainapp/models.py:99-116 | Every diet type, level and status written as its code reads back as itself |
| Models.NewProfile | mainapp/models.py:39-45 | A fresh profile has every nullable column null and diet preference `veg` |
| Models.NewGoal | mainapp/models.py:111-125 | A created goal holds the given fields, status `pending` and no workout or diet plan |
| Models.GoalType | mainapp/models.py:131-135 | `goal_type` is gain iff both weights are truthy and target > current; loss iff both are truthy and target <= current (equality included); none iff either weight is missing or zero |
| Models.LatestGoal | mainapp/views.py:121 | The newest goal of the user (with the status, if one is given), read with `Query.Last`, is a selected goal with no selected goal after it; none iff no goal is selected |
| Models.AddDay | mainapp/models.py:174-176 | Adding a daily row is refused iff its (plan, day number) pair is taken; otherwise the rows stay unique per pair and ordered by day, holding the old rows plus the new one |
| Models.InsertPosition | mainapp/models.py:176 | The insertion point splits ordered rows into those with day number <= the new day and those after it |
| Models.InsertByDay | mainapp/models.py:176 | Inserting a row at its place keeps the rows ordered by day number, adds exactly that row, and keeps every other row in relative order |
| Bmi.CategoryOf | mainapp/utils.py:11-19 | underweight iff bmi < 18.5; normal iff 18.5 <= bmi < 25; overweight iff 25 <= bmi < 30; obese iff bmi >= 30 |
| Bmi.RankIsThresholdsCrossed | mainapp/utils.py:11-19 | A category's position on the scale equals the number of thresholds of the table 18.5, 25, 30 that the BMI reaches |
| Bmi.CategoryMonotone | mainapp/utils.py:11-19 | A larger BMI never gets a lighter category |
| Bmi.DefaultBmiIsNormal | mainapp/views.py:84 | The default BMI 22 is normal |
| Bmi.InlineLabel | mainapp/views.py:385-390 | The inline label is one of the four capitalised names; `Underweight` iff the BMI is below 18.5 and `Obese` iff it is 30 or more |
| Bmi.InlineLabelAgrees | mainapp/views.py:385-390 | For every BMI, the label `bmi_view` computes inline is the capitalised `get_bmi_category` name |
| Bmi.CategoryNamesDistinct | mainapp/utils.py:11-19 | Different categories have different names |
| Text.Lower | mainapp/admin.py:112 | `lower()` keeps the length and maps each character: A-Z shift to a-z and every other character stays |
| Text.Capitalize | mainapp/admin.py:115 | `capitalize()` upper-cases the first character and lower-cases the rest |
| Text.LowerIdempotent | mainapp/admin.py:112 | Lowering twice is lowering once |
| Text.LowerOfCapitalize | mainapp/admin.py:112-115 | The lowered display form of a status is the lowered status |
| Metrics.Parse | mainapp/views.py:379-380 | `float(x or default)`: a blank field takes the default, a value is kept, and unparseable text is an error |
| Metrics.BmiOf | mainapp/views.py:383-384 | The BMI times the square of the height in metres gives back the weight |
| Metrics.BmiIncreasesWithWeight | mainapp/views.py:383-384 | At one height a heavier weight gives a higher BMI |
| Metrics.RecordsOf | mainapp/views.py:36 | `filter(user=user)`, read with `Query.Filter`: a record of the table is among the user's records iff it belongs to the user, and only such records are |
| Metrics.NewestFirst | mainapp/views.py:36 | `filter(user=user).order_by('-id')`, as the dashboard (views.py:36) and the assigner (views.py:83) read it: the user's records in reverse table order |
| Metrics.NewestFirstDescends | mainapp/views.py:83 | Newest first, a user's records have strictly descending keys |
| Metrics.SubmitBmi | mainapp/views.py:377-407 | Error iff a field does not parse; refused iff the height is <= 0. Otherwise exactly one record is appended, holding the user, weight, height, the BMI of the two and its capitalised category; the user's profile (created if missing) gets the height and weight, and other profiles are unchanged |
| Metrics.AppendRecord | mainapp/views.py:392-398 | The new record goes last, under a key above every other, and the earlier rows are unchanged |
| Metrics.StoreMeasurements | mainapp/views.py:400-403 | `update_or_create` sets height and weight on the user's profile, or on a fresh one, and touches no other profile |
| Metrics.SubmitBmiBecomesNewest | mainapp/views.py:392-398 | After a submission the new record heads the user's newest-first history, and every other user's history is unchanged |
| Metrics.BodyFatFollowsBmi | mainapp/views.py:426-428 | At fixed age and gender, body fat is strictly increasing in BMI, and equal body fats mean equal BMIs |
| Metrics.BodyFatExample | mainapp/views.py:426-428 | BMI 22, age 25, male gives 15.95 |
| Metrics.SubmitBodyFat | mainapp/views.py:416-432 | Error iff a field does not parse; refused iff the height is <= 0; otherwise the linear estimate of the BMI, with defaults weight 0, age 25 and gender 1 |
| Metrics.TrendOf | mainapp/views.py:51 | up iff latest > previous; down iff latest < previous; same iff equal |
| Metrics.DashboardAge | mainapp/views.py:32 | The profile's age when there is a profile with a non-zero age, and 25 otherwise; never 0 |
| Metrics.GenderFactor | mainapp/views.py:33 | 1 iff there is a profile whose gender is male, and 0 otherwise |
| Metrics.ChartEntries | mainapp/views.py:35-37 | The newest seven records, reversed, are the user's last seven records in chronological order |
| Metrics.ChartEndsAtLatest | mainapp/views.py:40-47 | The chart ends with the user's latest record and, with two or more records, the one before it |
| Metrics.Summarise | mainapp/views.py:40-65 | The latest BMI is the last charted one, or 22 without records. The BMI trend compares the last two, or is same. In exact arithmetic the body-fat trend always equals the BMI trend; the source compares rounded values, which this model does not round. The series hold one value per charted record |
| Metrics.Dashboard | mainapp/views.py:24-75 | The same figures in terms of the user's whole history: its last record, its last two records, its last seven for the chart |
| Assign.PlanTypeOf | mainapp/views.py:90-91 | Loss iff the target is truthy and below the current weight; gain iff the target is missing, zero or at least the current weight; error iff a truthy target meets a missing current weight |
| Assign.GoalTypeVersusAssigner | mainapp/models.py:131-135 | With two truthy weights, `goal_type` and the assigner agree iff the weights differ; on equal weights the property says loss and the assigner gain |
| Models.EffectiveAge | mainapp/views.py:86 | A missing or zero age counts as 25; any other age is kept |
| Assign.WorkoutLevel | mainapp/views.py:92 | Beginner iff age > 45 or the category is overweight or obese; advanced is never chosen |
| Assign.WorkoutLevelByBmi | mainapp/views.py:88-92 | In terms of the BMI itself: beginner iff age > 45 or BMI >= 25 |
| Assign.LatestBmi | mainapp/views.py:83-84 | The BMI of the user's newest record, or 22 without one |
| Assign.AutoAssignPlan | mainapp/views.py:81-101 | Error iff the weights cannot be compared. Otherwise the workout is none iff no catalog plan has the goal's type and level, else the earliest such plan; the diet is none iff no plan has the type and the profile's diet preference, else the earliest such plan |
| Assign.AssignedPlansFitTheGoal | mainapp/views.py:94-99 | A plan picked comes from the catalog and carries the goal's type. The workout is never advanced, and is beginner iff age > 45 or BMI >= 25. The diet has the preferred diet type |
| Assign.ProfileSuggestion | mainapp/views.py:276-290 | Without a goal there is no suggestion. Otherwise, for the newest goal: an error iff its weights cannot be compared; the earliest catalog workout of its type at any level, and the earliest catalog diet of its type and of the goal's own diet type; each none iff none matches |
| Assign.SuggestionAgreesWithAssigner | mainapp/views.py:276-290 | For the newest goal, the profile page fails iff the assigner fails; it suggests the assigner's diet when the goal's diet type is the profile's preference; and it shows a workout whenever the assigner finds one |
| Schedule.DayCount | mainapp/views.py:131 | A missing or zero duration means 30 days, a positive one that many, a negative one none |
| Schedule.DayWorkout | mainapp/views.py:139 | `workouts.first()`: none iff the catalog has no workout of the view's type, otherwise the earliest one |
| Schedule.DayMeals | mainapp/views.py:126 | At most two meals, each a catalog diet of the view's type and the goal's diet type. They are a prefix of all such diets, and all of them when fewer than two |
| Schedule.BuildSchedule | mainapp/views.py:129-141 | One entry per day, dated start + i. Day i is a workout day iff i is even. Its workout is present iff i is even and the catalog has a plan of the view's type, and is then the first such plan. Every day has the same meals |
| Schedule.AlternatingWorkoutDays | mainapp/views.py:133-135 | Alternating from a workout day, n days hold ⌈n/2⌉ workout days |
| Schedule.ThirtyDaySchedule | mainapp/views.py:131-135 | A goal whose schedule runs 30 days (no duration, 0 or 30) gets 15 workout days and 15 rest days |
| Schedule.PlanPage | mainapp/views.py:121-153 | The form is shown iff the user has no assigned goal. Otherwise the schedule of the user's newest assigned goal: its length and dates, a workout day iff the day index is even, the first workout of the view's type on those days and none on the others, and the same meals every day |
| Schedule.DayOf | mainapp/views.py:502-503 | A day's row is present iff the goal has a plan and some row of that plan has that day number, and it is such a row |
| Schedule.DayOfIsUnique | mainapp/models.py:175 | With one row per (plan, day number), the lookup returns that very row |
| Schedule.UserPlanView | mainapp/views.py:490-504 | 404 iff the user has no assigned goal. Error iff several, or iff the one goal has no duration. Otherwise one entry per day, numbered from 1, dated start + i, with that day's diet and workout rows of the goal's own plans |
| Goals.CreateGoal | mainapp/views.py:249-256 | One goal appended under a fresh key, pending, without plans, with the given fields; the earlier goals unchanged |
| Goals.GainIntakeAsWritten | mainapp/views.py:156-183 | With an assigned goal the plan is shown and nothing stored. A user without a profile gets an error. Otherwise one fresh pending goal is appended, keys still ascending, storing the entered current weight, target = the amount to gain, duration 0 and no diet type; the user's profile becomes exactly their old profile with height 0 and the entered weight, the profile table gains no user and no other profile changes |
| Goals.GainIntake | mainapp/views.py:156-183 | The same outcomes as written. The goal appended is fresh, keeps the keys ascending, and stores the entered current weight, target = current weight + gain, the entered duration and no diet type; the user's profile becomes exactly their old profile with the entered height and weight, the profile table gains no user and changes no other profile |
| Goals.LossIntake | mainapp/views.py:246-258 | With an assigned goal the plan is shown and nothing stored. Otherwise one fresh pending goal is appended, and profiles are untouched |
| Goals.GainIntakeMeansGain | mainapp/forms.py:7-11 | The corrected gain goal targets current + gain, and when both weights are positive the assigner and `goal_type` both read it as gain. It keeps the entered duration, and the profile gets the entered height and weight |
| Goals.GainStoredAsLoss | mainapp/views.py:173 | As written, any gain smaller than the current weight is stored as a goal the assigner and `goal_type` both read as loss |
| Goals.GainIntakeCounterexample | mainapp/views.py:163-174 | 170 cm, 70 kg, gain 5 kg, 60 days. As written: a loss goal of 30 days and profile height 0. Corrected: a gain goal of 60 days and height 170 |
| Goals.GainDurationIgnored | mainapp/views.py:174 | As written, every gain goal runs the default 30 days on the plan page, whatever duration was entered |
| Goals.GainGoalsGetNoMeals | mainapp/views.py:175 | A gain goal has no diet type, so its plan page lists no meals |
| Goals.LossIntakeMeansLoss | mainapp/views.py:249-256 | The loss goal stores the entered values, and with a truthy target below the current weight both readers take it as loss |
| Goals.ParseAction | mainapp/views.py:448-455 | The action is approve, reject or auto_assign iff the field is exactly that string |
| Goals.ApplyAction | mainapp/views.py:451-461 | approve/reject set approved/rejected and keep the plans. auto_assign fails iff the owner has no profile or the weights cannot be compared, and otherwise sets the assigner's plans and approved. Any other action changes nothing. No action touches the goal's data |
| Goals.FindGoal | mainapp/views.py:449 | The goal with the id is found iff one exists, at its first position |
| Goals.OwnerProfile | mainapp/views.py:82 | `user.userprofile`: present iff the goal's owner has a profile, and then that profile |
| Goals.GoalDashboardPost | mainapp/views.py:446-461 | Not found iff no goal has the id. Otherwise, for the first goal with the id, the POST succeeds iff its action does, fails with exactly the action's error, and on success that goal becomes the result of its action and every other goal is unchanged |
| Goals.DashboardNeverAssigns | mainapp/views.py:451-459 | Every offered action leaves the goal approved or rejected, and none makes a goal `assigned` |
| Admin.ColourOf | mainapp/admin.py:105-112 | orange, green, red or purple iff the lowered status is pending, approved, rejected or completed; black iff it is none of them |
| Admin.ColourIgnoresCase | mainapp/admin.py:112-115 | A status, its lowered form and its capitalised form get the same colour and the same link |
| Admin.StatusColours | mainapp/admin.py:106-112 | The colour of each stored status; `assigned` shows black |
| Admin.AutoAssignOfferedForPending | mainapp/admin.py:121-131 | The link is offered iff the status is pending, exactly where the colour is orange |
| Admin.BulkSetStatus | mainapp/admin.py:137-147 | Selected goals get the new status, every other goal is unchanged, and no other column changes |
| Admin.LastBulkActionWins | mainapp/admin.py:137-147 | Two bulk actions on one selection leave the second one's status |
| Admin.ApproveGoals | mainapp/admin.py:137-138 | Every selected goal is approved; unselected goals are unchanged; no goal changes any column but the status |
| Admin.RejectGoals | mainapp/admin.py:143-144 | Every selected goal is rejected; unselected goals are unchanged; no goal changes any column but the status |
| Admin.EnsureProfile | mainapp/admin.py:186 | `get_or_create` adds a fresh profile for the user iff missing, and keeps every existing one |
| Admin.ProcessAutoAssign | mainapp/admin.py:181-193 | 404 iff no goal has the id. The owner's profile exists afterwards, even when the weights cannot be compared. Otherwise the goal gets the assigner's plans and approved, whatever its prior status, and other goals are unchanged |
| Admin.ProcessAutoAssignIdempotent | mainapp/admin.py:181-193 | Running the page twice on one goal equals running it once |
| Admin.StatusRankIsCodeOrder | mainapp/admin.py:208 | The list's status order is the alphabetical order of the stored codes |
| Admin.InsertListed | mainapp/admin.py:208 | Inserting into a list sorted in either list order keeps that order and adds exactly the goal |
| Admin.AdminList | mainapp/admin.py:206-208 | Sorted in an order, the goals are each held once and in that order; with `StatusThenNewest` it is the queryset `get_queryset` returns, by status and then newest start |
| Admin.ChangeListOrder | mainapp/admin.py:100 | The change list the admin shows holds every goal once, newest start date first (the class's `ordering`); on one start date by status code in alphabetical order (the `order_by` of `get_queryset`, admin.py:208, which comes after it); then the higher key first |
| Admin.ChangeListStatusBreaksTies | mainapp/admin.py:206-208 | Of two goals started the same day, the approved one is listed before the pending one although its key is lower |
| Admin.PendingCodeIsPending | mainapp/views.py:443 | `status__iexact="pending"` selects exactly the pending goals |
| Admin.PendingQueue | mainapp/views.py:442-444 | The queue holds exactly the pending goals, each as often as in the table, newest start date first |
| Workflow.IntakeKeepsInvariant | mainapp/views.py:170-177 | An intake, the gain page as written or corrected or the loss page, adds only a pending goal without plans, under a fresh key |
| Workflow.DashboardKeepsInvariant | mainapp/views.py:451-461 | A dashboard POST never makes a goal assigned, and never leaves a pending goal with plans |
| Workflow.BulkKeepsInvariant | mainapp/admin.py:137-147 | Bulk actions never make a goal assigned and keep keys ascending |
| Workflow.AutoAssignKeepsInvariant | mainapp/admin.py:188-193 | The auto-assign page never makes a goal assigned |
| Workflow.StepKeepsInvariant | mainapp/models.py:105-116 | Every goal-writing request, the gain page as written included, keeps: keys ascending, no goal assigned, and pending goals without plans |
| Workflow.Run | mainapp/models.py:116 | Any sequence of such requests keeps that invariant |
| Workflow.PlanPagesNeverReached | mainapp/views.py:491 | After any requests from a store without assigned goals, every user's gain/loss page shows the form and `user_plan_view` answers 404 |
| Fixtures.SeedCatalogCoversAssigner | mainapp/Script.py/populate_workoutplans.py:10-27 | The seed catalog has a workout for every type and every level the assigner picks, and a diet for every type for veg and nonveg users |
| Fixtures.LossExample | mainapp/views.py:94-99 | A veg user, 30 years old, no BMI record, going from 80 to 70 kg: the intermediate loss workout and the veg loss diet |
| Fixtures.GainExample | mainapp/views.py:94-99 | A nonveg user aged 50 going from 60 to 70 kg: the beginner gain workout and the nonveg gain diet |
| Fixtures.VeganExample | mainapp/Script.py/populate_dietplans.py:11-28 | The seed catalog has no vegan diet, so a vegan user gets a workout and no diet |

## Left out

- Rendering, redirects, flash messages and the login and staff decorators. A view's outcome is the data it would render or the tables it writes.
- Authentication: `login_view`, `logout_view`, `register`, the sign-up form, and `send_verification_email`.
- Email. `send_mail` in `goal_dashboard` and `notify_user` in the admin are external, fail silently and change no table.
- Floating-point arithmetic. BMI and body fat are exact reals, and `round(..., 2)` is not modelled.
- Text.Lower and Text.Capitalize: map only ASCII letters. Python's `lower()` and `capitalize()` also fold other Unicode letters. No stored status code has any.
- Form validation and URL routing (mainapp/forms.py, mainapp/urls.py). A valid form is its cleaned values, and a non-numeric `goal_id` is not modelled; ids are naturals.
- Chart labels (`created_at.strftime`), the `progress = 50` placeholder of `profile`, and the HTML of `colored_status` and `auto_assign_button`.
- Concurrency and transactions: requests run one after another.
- Schedule.DayMeals: takes the first two matching diet plans in key order. `diets[:2]` on an unordered queryset has no order the database promises.
- Admin.ChangeListOrder: the change list with no column sort chosen. Re-sorting by a clicked column header is not modelled.
- `BMIRecord`'s default ordering `-created_at` (mainapp/models.py:20): every modelled read of the records orders them by key explicitly, so it is never used.
- Metrics.Dashboard: it also assumes every record has a BMI. The column is not nullable, so the view's `e.bmi is not None` filter drops nothing.
- Schedule.BuildSchedule: assumes the goal always has a start date. `start_date` is set on creation, so the `or date.today()` fallback never fires.
- The admin change form: it can set any field, `assigned` included. It is the only path to `assigned` and is generic framework code, so the workflow invariant covers only the pages above.
- `UserWorkoutSession` and `UserDietRecord`: no view or admin action writes or reads them beyond inline display.
- The `profile` view's profile and goal rendering: only its plan suggestion is modelled.
- `get_or_create` and `update_or_create` are modelled by their effect on the profile table. Django's lookup and locking are not.

## Findings

| source | as written | input that shows it | evidently intended | confidence | as-written member | corrected member |
|---|---|---|---|---|---|---|
| mainapp/views.py:173 | the gain page stores the amount to gain as `target_weight` | height 170, weight 70, gain 5, duration 60: the goal is 70 kg → 5 kg, which the assigner and `goal_type` read as loss | target = current weight + gain | high; not executed | Goals.GainStoredAsLoss | Goals.GainIntakeMeansGain |
| mainapp/views.py:174 | the duration is read under `duration_days`, but the gain form's field is `duration`, so 0 is stored | the same form: the goal has duration 0, so the plan page runs the default 30 days, not 60 | the entered duration | high; not executed | Goals.GainDurationIgnored | Goals.GainIntakeMeansGain |
| mainapp/views.py:163 | the height is read under `height_cm`, but the gain form's field is `height`, so the profile height becomes 0 | the same form: the profile's height is 0 instead of 170 | the entered height | high; not executed | Goals.GainIntakeCounterexample | Goals.GainIntake |

`Goals.GainIntakeAsWritten` models the gain page as written, and the three
as-written lemmas are stated about it. `Goals.GainIntake` is the corrected
intake. The workflow has one request for each: `SubmitGain` runs the page
as written and `SubmitGainCorrected` the corrected page, so the workflow
properties hold for the program as it is and as intended.

=== FILE: admin.dfy ===
/** The staff side (mainapp/admin.py `UserGoalAdmin`): the status colour
    and the auto-assign link of the goal list, the bulk approve and reject
    actions, the one-goal auto-assign page, and the order of the goal list;
    plus the pending queue of the `goal_dashboard` page (mainapp/views.py).
 */
module Admin {
  import opened Wrappers
  import opened Query
  import opened Text
  import opened Models
  import opened Assign
  import opened Goals

  // ---------------------------------------------------------------------
  // colored_status and auto_assign_button
  // ---------------------------------------------------------------------

  /** `colors.get(obj.status.lower(), "black")`. */
  function ColourOf(raw: string): (c: string)
    ensures c == "orange" <==> Lower(raw) == "pending"
    ensures c == "green" <==> Lower(raw) == "approved"
    ensures c == "red" <==> Lower(raw) == "rejected"
    ensures c == "purple" <==> Lower(raw) == "completed"
    ensures c == "black" <==> Lower(raw) !in {"pending", "approved", "rejected", "completed"}
  {
    var key := Lower(raw);
    if key == "pending" then "orange"
    else if key == "approved" then "green"
    else if key == "rejected" then "red"
    else if key == "completed" then "purple"
    else "black"
  }

  /** The link is offered exactly for a status that lowers to `pending`. */
  predicate OffersAutoAssign(raw: string) {
    Lower(raw) == "pending"
  }

  /** The colour ignores case: a status, its lower-case form and its
      capitalised display form all get the same colour and the same link. */
  lemma ColourIgnoresCase(raw: string)
    ensures ColourOf(Lower(raw)) == ColourOf(raw)
    ensures ColourOf(Capitalize(raw)) == ColourOf(raw)
    ensures OffersAutoAssign(Capitalize(raw)) == OffersAutoAssign(raw)
  {
    LowerIdempotent(raw);
    LowerOfCapitalize(raw);
  }

  /** A stored code is its own lower-case form. */
  lemma StatusCodeIsLower(s: Status)
    ensures Lower(StatusCode(s)) == StatusCode(s)
  {
    match s
    case Pending => LowerOfLowered("pending");
    case Assigned => LowerOfLowered("assigned");
    case Completed => LowerOfLowered("completed");
    case Approved => LowerOfLowered("approved");
    case Rejected => LowerOfLowered("rejected");
  }

  /** The colour of each status the code writes; `assigned`, the status the
      plan pages look for, has no entry and shows black. */
  lemma StatusColours(s: Status)
    ensures ColourOf(StatusCode(s)) == match s
      case Pending => "orange"
      case Approved => "green"
      case Rejected => "red"
      case Completed => "purple"
      case Assigned => "black"
  {
    StatusCodeIsLower(s);
  }

  /** The link shows for pending goals and for no others, exactly where the
      colour is orange. */
  lemma AutoAssignOfferedForPending(s: Status, raw: string)
    ensures OffersAutoAssign(StatusCode(s)) <==> s == Pending
    ensures OffersAutoAssign(raw) <==> ColourOf(raw) == "orange"
  {
    StatusCodeIsLower(s);
  }

  // ---------------------------------------------------------------------
  // approve_goals and reject_goals
  // ---------------------------------------------------------------------

  /** `queryset.update(status=...)` over the selected goals: one column of
      the selected rows, nothing else. */
  function BulkSetStatus(goals: seq<UserGoal>, selected: set<nat>, s: Status): (r: seq<UserGoal>)
    ensures |r| == |goals|
    ensures forall i :: 0 <= i < |goals| ==>
      && SameGoalData(r[i], goals[i])
      && r[i].workoutPlan == goals[i].workoutPlan && r[i].dietPlan == goals[i].dietPlan
      && r[i].status == (if goals[i].id in selected then s else goals[i].status)
  {
    if |goals| == 0 then []
    else
      var g := goals[0];
      [if g.id in selected then g.(status := s) else g] + BulkSetStatus(goals[1..], selected, s)
  }

  /** Applying two bulk actions to the same selection leaves the second
      one's status: approving then rejecting is rejecting. */
  lemma {:induction false} LastBulkActionWins(goals: seq<UserGoal>, selected: set<nat>, s1: Status, s2: Status)
    ensures BulkSetStatus(BulkSetStatus(goals, selected, s1), selected, s2) == BulkSetStatus(goals, selected, s2)
  {
    if |goals| > 0 {
      LastBulkActionWins(goals[1..], selected, s1, s2);
      assert BulkSetStatus(goals, selected, s1)[1..] == BulkSetStatus(goals[1..], selected, s1);
    }
  }

  function ApproveGoals(goals: seq<UserGoal>, selected: set<nat>): (r: seq<UserGoal>)
    ensures |r| == |goals|
    ensures forall i :: 0 <= i < |goals| && goals[i].id in selected ==> r[i].status == Approved
    ensures forall i :: 0 <= i < |goals| && goals[i].id !in selected ==> r[i] == goals[i]
    ensures forall i :: 0 <= i < |goals| ==>
      SameGoalData(r[i], goals[i]) && r[i].workoutPlan == goals[i].workoutPlan && r[i].dietPlan == goals[i].dietPlan
  {
    BulkSetStatus(goals, selected, Approved)
  }

  function RejectGoals(goals: seq<UserGoal>, selected: set<nat>): (r: seq<UserGoal>)
    ensures |r| == |goals|
    ensures forall i :: 0 <= i < |goals| && goals[i].id in selected ==> r[i].status == Rejected
    ensures forall i :: 0 <= i < |goals| && goals[i].id !in selected ==> r[i] == goals[i]
    ensures forall i :: 0 <= i < |goals| ==>
      SameGoalData(r[i], goals[i]) && r[i].workoutPlan == goals[i].workoutPlan && r[i].dietPlan == goals[i].dietPlan
  {
    BulkSetStatus(goals, selected, Rejected)
  }

  // ---------------------------------------------------------------------
  // process_auto_assign
  // ---------------------------------------------------------------------

  /** The tables after the page ran and how it ended. The profile is
      created before the assigner runs, so it stays created when the
      assigner fails. */
  datatype AutoAssignOutcome = AutoAssignOutcome(goals: seq<UserGoal>, profiles: map<nat, UserProfile>,
                                                 failure: Option<DashboardError>)

  /** `UserProfile.objects.get_or_create(user=user)`. */
  function EnsureProfile(profiles: map<nat, UserProfile>, user: nat): (r: map<nat, UserProfile>)
    ensures r.Keys == profiles.Keys + {user}
    ensures forall u :: u in profiles ==> r[u] == profiles[u]
    ensures user !in profiles ==> r[user] == NewProfile()
  {
    if user in profiles then profiles else profiles[user := NewProfile()]
  }

  /** `process_auto_assign(goal_id)`: look the goal up, make sure its owner
      has a profile, assign the plans the assigner picks and approve the
      goal, whatever status it had. */
  function ProcessAutoAssign(store: Store, goalId: nat): (r: AutoAssignOutcome)
    ensures r.failure != Some(ProfileMissing)
    ensures r.failure == Some(GoalNotFound) <==> forall i :: 0 <= i < |store.goals| ==> store.goals[i].id != goalId
    ensures r.failure == Some(GoalNotFound) ==> r.goals == store.goals && r.profiles == store.profiles
    ensures r.failure == Some(WeightsNotComparable) ==> r.goals == store.goals
    ensures r.failure != Some(GoalNotFound) ==>
      var k := FindGoal(store.goals, goalId).value;
      var g := store.goals[k];
      && r.profiles == EnsureProfile(store.profiles, g.user)
      && (r.failure == Some(WeightsNotComparable) <==> PlanTypeOf(g.currentWeight, g.targetWeight).Err?)
      && (r.failure.None? ==>
            var a := AutoAssignPlan(r.profiles[g.user], store.records, g, store.workouts, store.diets).value;
            && |r.goals| == |store.goals|
            && SameGoalData(r.goals[k], g)
            && r.goals[k].status == Approved
            && r.goals[k].workoutPlan == a.workout && r.goals[k].dietPlan == a.diet
            && forall j :: 0 <= j < |store.goals| && j != k ==> r.goals[j] == store.goals[j])
  {
    match FindGoal(store.goals, goalId)
    case None => AutoAssignOutcome(store.goals, store.profiles, Some(GoalNotFound))
    case Some(k) =>
      var g := store.goals[k];
      var profiles := EnsureProfile(store.profiles, g.user);
      match AutoAssignPlan(profiles[g.user], store.records, g, store.workouts, store.diets)
      case Err(_) => AutoAssignOutcome(store.goals, profiles, Some(WeightsNotComparable))
      case Ok(a) =>
        AutoAssignOutcome(store.goals[k := g.(workoutPlan := a.workout, dietPlan := a.diet, status := Approved)],
                          profiles, None)
  }

  /** The store after the page ran. */
  function After(store: Store, r: AutoAssignOutcome): Store {
    store.(goals := r.goals, profiles := r.profiles)
  }

  /** Running the page twice on the same goal changes nothing the first run
      did not: the assigner reads nothing the first run wrote. */
  lemma ProcessAutoAssignIdempotent(store: Store, goalId: nat)
    ensures var once := ProcessAutoAssign(store, goalId);
      var twice := ProcessAutoAssign(After(store, once), goalId);
      twice == once
  {
    var once := ProcessAutoAssign(store, goalId);
    var s1 := After(store, once);
    if once.failure.None? {
      var k := FindGoal(store.goals, goalId).value;
      assert FindGoal(s1.goals, goalId) == Some(k);
      var g := store.goals[k];
      var g1 := s1.goals[k];
      assert EnsureProfile(s1.profiles, g1.user) == s1.profiles;
      var a := AutoAssignPlan(s1.profiles[g.user], store.records, g, store.workouts, store.diets).value;
      assert AutoAssignPlan(s1.profiles[g1.user], s1.records, g1, s1.workouts, s1.diets) == Ok(a);
      assert g1 == g.(workoutPlan := a.workout, dietPlan := a.diet, status := Approved);
      assert s1.goals[k := g1.(workoutPlan := a.workout, dietPlan := a.diet, status := Approved)] == s1.goals;
    }
  }

  // ---------------------------------------------------------------------
  // get_queryset ordering, and the dashboard's pending queue
  // ---------------------------------------------------------------------

  /** Strict lexicographic order on strings, as the database compares the
      status column. */
  predicate StringBefore(a: string, b: string) {
    if |a| == 0 then |b| > 0
    else |b| > 0 && (a[0] < b[0] || (a[0] == b[0] && StringBefore(a[1..], b[1..])))
  }

  /** Where each status falls in `order_by("status")`. */
  function StatusRank(s: Status): nat {
    match s
    case Approved => 0
    case Assigned => 1
    case Completed => 2
    case Pending => 3
    case Rejected => 4
  }

  /** The ranks follow the alphabetical order of the stored codes. */
  lemma StatusRankIsCodeOrder(a: Status, b: Status)
    ensures StatusRank(a) < StatusRank(b) <==> StringBefore(StatusCode(a), StatusCode(b))
  {
    var ca, cb := StatusCode(a), StatusCode(b);
    if a == b {
      StringBeforeIrreflexive(ca);
    } else if a in {Approved, Assigned} && b in {Approved, Assigned} {
      assert StringBefore(ca, cb) == StringBefore(ca[1..], cb[1..]);
    }
  }

  /** No string comes before itself. */
  lemma {:induction false} StringBeforeIrreflexive(s: string)
    ensures !StringBefore(s, s)
  {
    if |s| > 0 {
      StringBeforeIrreflexive(s[1..]);
    }
  }

  /** The two orders the goal list is sorted in. `StatusThenNewest` is the
      `order_by("status", "-start_date")` of `get_queryset`. `ChangeList` is
      the order the admin change list sorts that queryset by: the class's
      `ordering = ("-start_date",)` first, then the queryset's own
      `order_by` fields, then a descending primary key that Django adds to
      make the order total. The queryset's order only breaks ties of the
      class's ordering. */
  datatype ListOrder = StatusThenNewest | ChangeList

  predicate ListedBefore(o: ListOrder, a: UserGoal, b: UserGoal) {
    match o
    case StatusThenNewest =>
      StatusRank(a.status) < StatusRank(b.status)
      || (StatusRank(a.status) == StatusRank(b.status) && a.startDate >= b.startDate)
    case ChangeList =>
      a.startDate > b.startDate
      || (a.startDate == b.startDate
          && (StatusRank(a.status) < StatusRank(b.status)
              || (StatusRank(a.status) == StatusRank(b.status) && a.id >= b.id)))
  }

  predicate Listed(o: ListOrder, s: seq<UserGoal>) {
    forall i, j :: 0 <= i < j < |s| ==> ListedBefore(o, s[i], s[j])
  }

  function InsertListed(o: ListOrder, x: UserGoal, s: seq<UserGoal>): (r: seq<UserGoal>)
    requires Listed(o, s)
    ensures Listed(o, r)
    ensures multiset(r) == multiset(s) + multiset{x}
  {
    if |s| == 0 then [x]
    else if ListedBefore(o, x, s[0]) then [x] + s
    else
      var rest := InsertListed(o, x, s[1..]);
      HeadBeforeInserted(o, x, s, rest);
      ListedCons(o, s[0], rest);
      assert s == [s[0]] + s[1..];
      [s[0]] + rest
  }

  /** When `x` does not go first, the head of `s` still comes before every
      goal of the rest with `x` inserted. */
  lemma HeadBeforeInserted(o: ListOrder, x: UserGoal, s: seq<UserGoal>, rest: seq<UserGoal>)
    requires Listed(o, s) && |s| > 0 && !ListedBefore(o, x, s[0])
    requires multiset(rest) == multiset(s[1..]) + multiset{x}
    ensures forall i :: 0 <= i < |rest| ==> ListedBefore(o, s[0], rest[i])
  {
    forall i | 0 <= i < |rest|
      ensures ListedBefore(o, s[0], rest[i])
    {
      assert rest[i] in multiset(rest);
      if rest[i] != x {
        assert rest[i] in multiset(s[1..]);
        var j :| 0 <= j < |s[1..]| && s[1..][j] == rest[i];
        assert s[j + 1] == rest[i];
      }
    }
  }

  lemma ListedCons(o: ListOrder, y: UserGoal, rest: seq<UserGoal>)
    requires Listed(o, rest)
    requires forall i :: 0 <= i < |rest| ==> ListedBefore(o, y, rest[i])
    ensures Listed(o, [y] + rest)
  {
    var r := [y] + rest;
    forall i, j | 0 <= i < j < |r|
      ensures ListedBefore(o, r[i], r[j])
    {
      assert r[j] == rest[j - 1];
      if i > 0 {
        assert r[i] == rest[i - 1];
      }
    }
  }

  /** The goals sorted into an order: every goal once, in that order. */
  function AdminList(o: ListOrder, goals: seq<UserGoal>): (r: seq<UserGoal>)
    ensures Listed(o, r)
    ensures multiset(r) == multiset(goals)
  {
    if |goals| == 0 then []
    else
      assert goals == [goals[0]] + goals[1..];
      InsertListed(o, goals[0], AdminList(o, goals[1..]))
  }

  /** The change list the admin shows: every goal once, newest start date
      first; among goals started the same day, by status code in
      alphabetical order; and among those, the higher key first. */
  lemma ChangeListOrder(goals: seq<UserGoal>)
    ensures var r := AdminList(ChangeList, goals);
      && multiset(r) == multiset(goals)
      && forall i, j :: 0 <= i < j < |r| ==>
           || r[i].startDate > r[j].startDate
           || (r[i].startDate == r[j].startDate && StringBefore(StatusCode(r[i].status), StatusCode(r[j].status)))
           || (r[i].startDate == r[j].startDate && r[i].status == r[j].status && r[i].id >= r[j].id)
  {
    var r := AdminList(ChangeList, goals);
    forall i, j | 0 <= i < j < |r|
      ensures || r[i].startDate > r[j].startDate
              || (r[i].startDate == r[j].startDate && StringBefore(StatusCode(r[i].status), StatusCode(r[j].status)))
              || (r[i].startDate == r[j].startDate && r[i].status == r[j].status && r[i].id >= r[j].id)
    {
      assert ListedBefore(ChangeList, r[i], r[j]);
      StatusRankIsCodeOrder(r[i].status, r[j].status);
    }
  }

  /** Two goals started the same day: the approved one is listed before the
      pending one although its key is lower. */
  lemma ChangeListStatusBreaksTies()
    ensures var g1 := NewGoal(1, 7, None, None, None, None, 0).(status := Approved);
      var g2 := NewGoal(2, 8, None, None, None, None, 0);
      AdminList(ChangeList, [g2, g1]) == [g1, g2]
  {
    var g1 := NewGoal(1, 7, None, None, None, None, 0).(status := Approved);
    var g2 := NewGoal(2, 8, None, None, None, None, 0);
    assert [g2, g1][1..] == [g1];
    assert AdminList(ChangeList, [g1]) == [g1];
    assert ListedBefore(ChangeList, g1, g2);
  }

  /** `status__iexact="pending"`: equal once both sides are lowered. */
  predicate IsPendingCode(raw: string) {
    Lower(raw) == Lower("pending")
  }

  /** The `goal_dashboard` queue: the pending goals, newest start date
      first. */
  function PendingQueue(goals: seq<UserGoal>): (r: seq<UserGoal>)
    ensures forall i :: 0 <= i < |r| ==> r[i].status == Pending && r[i] in goals
    ensures forall i :: 0 <= i < |goals| && goals[i].status == Pending ==> goals[i] in r
    ensures forall i, j :: 0 <= i < j < |r| ==> r[i].startDate >= r[j].startDate
    ensures multiset(r) == multiset(Filter(goals, (g: UserGoal) => g.status == Pending))
  {
    var pending := Filter(goals, PendingGoal);
    PendingCodeIsPending();
    FilterSame(goals, PendingGoal, (g: UserGoal) => g.status == Pending);
    var r := AdminList(ChangeList, pending);
    PendingQueueOrder(goals, pending, r);
    r
  }

  predicate PendingGoal(g: UserGoal) {
    IsPendingCode(StatusCode(g.status))
  }

  /** Sorting the pending goals into list order keeps exactly them and,
      their status being equal, orders them by start date alone. */
  lemma PendingQueueOrder(goals: seq<UserGoal>, pending: seq<UserGoal>, r: seq<UserGoal>)
    requires forall i :: 0 <= i < |pending| ==> pending[i].status == Pending && pending[i] in goals
    requires forall i :: 0 <= i < |goals| && goals[i].status == Pending ==> goals[i] in pending
    requires Listed(ChangeList, r) && multiset(r) == multiset(pending)
    ensures forall i :: 0 <= i < |r| ==> r[i].status == Pending && r[i] in goals
    ensures forall i :: 0 <= i < |goals| && goals[i].status == Pending ==> goals[i] in r
    ensures forall i, j :: 0 <= i < j < |r| ==> r[i].startDate >= r[j].startDate
  {
    assert forall i :: 0 <= i < |r| ==> r[i] in multiset(pending);
    assert forall x :: x in pending ==> x in multiset(r);
  }

  lemma PendingCodeIsPending()
    ensures forall g: UserGoal :: PendingGoal(g) <==> g.status == Pending
  {
    forall g: UserGoal
      ensures PendingGoal(g) <==> g.status == Pending
    {
      StatusCodeIsLower(g.status);
      StatusCodeIsLower(Pending);
    }
  }
}

=== FILE: assign.dfy ===
/** The plan assigner (mainapp/views.py `auto_assign_plan`) and the plan
    suggestion of the `profile` view: derive gain or loss from a goal's two
    weights, pick a workout level from age and BMI, and take the first
    matching workout and diet plan of the catalog.
 */
module Assign {
  import opened Wrappers
  import opened Query
  import opened Models
  import opened Bmi
  import Metrics

  /** Comparing a target weight with a missing current weight raises in
      Python (`<` between a float and `None`). */
  datatype AssignError = IncomparableWeights

  /** `is_loss = goal.target_weight and goal.target_weight < goal.current_weight`:
      loss only for a truthy target strictly below the current weight, gain
      otherwise, including for equal weights and a missing or zero target. */
  function PlanTypeOf(current: Option<real>, target: Option<real>): (r: Result<PlanType, AssignError>)
    ensures r.Err? <==> Truthy(target) && current.None?
    ensures r == Ok(Loss) <==> Truthy(target) && current.Some? && target.value < current.value
    ensures r == Ok(Gain) <==> !Truthy(target) || (current.Some? && target.value >= current.value)
  {
    if !Truthy(target) then Ok(Gain)
    else if current.None? then Err(IncomparableWeights)
    else if target.value < current.value then Ok(Loss)
    else Ok(Gain)
  }

  /** The derived `goal_type` property and the assigner agree on every goal
      with two truthy, different weights, and disagree on every goal whose
      two truthy weights are equal: the property says loss, the assigner gain. */
  lemma GoalTypeVersusAssigner(g: UserGoal)
    requires Truthy(g.currentWeight) && Truthy(g.targetWeight)
    ensures PlanTypeOf(g.currentWeight, g.targetWeight).Ok?
    ensures GoalType(g) == Some(PlanTypeOf(g.currentWeight, g.targetWeight).value)
        <==> g.targetWeight.value != g.currentWeight.value
    ensures g.targetWeight.value == g.currentWeight.value ==>
      GoalType(g) == Some(Loss) && PlanTypeOf(g.currentWeight, g.targetWeight) == Ok(Gain)
  {
  }

  /** `'beginner' if age > 45 or bmi_category in ['obese', 'overweight'] else
      'intermediate'`; `advanced` is never chosen. */
  function WorkoutLevel(age: int, c: Category): (l: Level)
    ensures l != Advanced
    ensures l == Beginner <==> age > 45 || c == Overweight || c == Obese
  {
    if age > 45 || c in {Obese, Overweight} then Beginner else Intermediate
  }

  /** The level, read straight off the BMI: beginner from BMI 25 up. */
  lemma WorkoutLevelByBmi(age: int, bmi: real)
    ensures WorkoutLevel(age, CategoryOf(bmi)) == Beginner <==> age > 45 || bmi >= 25.0
  {
  }

  /** The BMI of the user's newest record, or 22 without one. */
  function LatestBmi(records: seq<BmiRecord>, user: nat): (bmi: real)
    ensures var mine := Metrics.RecordsOf(records, user);
      bmi == if |mine| == 0 then DefaultBmi else mine[|mine| - 1].bmi
  {
    var newest := Metrics.NewestFirst(records, user);
    if |newest| == 0 then DefaultBmi else newest[0].bmi
  }

  predicate WorkoutMatches(t: PlanType, l: Level, w: WorkoutPlan) {
    w.planType == t && w.level == l
  }

  predicate DietMatches(t: PlanType, d: Option<DietType>, p: DietPlan) {
    p.planType == t && Some(p.dietType) == d
  }

  /** `x` is the first catalog diet of type `t` for diet type `d`. */
  predicate EarliestDiet(diets: seq<DietPlan>, t: PlanType, d: Option<DietType>, x: DietPlan) {
    exists i :: 0 <= i < |diets| && diets[i] == x && DietMatches(t, d, diets[i])
      && forall j :: 0 <= j < i ==> !DietMatches(t, d, diets[j])
  }

  /** There is only one first match. */
  lemma EarliestDietUnique(diets: seq<DietPlan>, t: PlanType, d: Option<DietType>, x: DietPlan, y: DietPlan)
    requires EarliestDiet(diets, t, d, x) && EarliestDiet(diets, t, d, y)
    ensures x == y
  {
    var i :| 0 <= i < |diets| && diets[i] == x && DietMatches(t, d, diets[i])
      && forall j :: 0 <= j < i ==> !DietMatches(t, d, diets[j]);
    var k :| 0 <= k < |diets| && diets[k] == y && DietMatches(t, d, diets[k])
      && forall j :: 0 <= j < k ==> !DietMatches(t, d, diets[j]);
    if i < k {
      assert false;
    } else if k < i {
      assert false;
    }
  }

  /** The plans chosen for a goal; either may be missing from the catalog. */
  datatype Assignment = Assignment(workout: Option<WorkoutPlan>, diet: Option<DietPlan>)

  /** `auto_assign_plan(user, goal)`. */
  function AutoAssignPlan(profile: UserProfile, records: seq<BmiRecord>, goal: UserGoal,
                          workouts: seq<WorkoutPlan>, diets: seq<DietPlan>): (r: Result<Assignment, AssignError>)
    ensures r.Err? <==> PlanTypeOf(goal.currentWeight, goal.targetWeight).Err?
    ensures r.Ok? ==>
      var t := PlanTypeOf(goal.currentWeight, goal.targetWeight).value;
      var l := WorkoutLevel(EffectiveAge(profile.age), CategoryOf(LatestBmi(records, goal.user)));
      && (r.value.workout.None? <==> forall i :: 0 <= i < |workouts| ==> !WorkoutMatches(t, l, workouts[i]))
      && (r.value.workout.Some? ==>
            exists i :: 0 <= i < |workouts| && workouts[i] == r.value.workout.value
              && WorkoutMatches(t, l, workouts[i])
              && forall j :: 0 <= j < i ==> !WorkoutMatches(t, l, workouts[j]))
    ensures r.Ok? ==>
      var t := PlanTypeOf(goal.currentWeight, goal.targetWeight).value;
      var d := Some(profile.dietPreference);
      && (r.value.diet.None? <==> forall i :: 0 <= i < |diets| ==> !DietMatches(t, d, diets[i]))
      && (r.value.diet.Some? ==> EarliestDiet(diets, t, d, r.value.diet.value))
  {
    var bmi := LatestBmi(records, goal.user);
    var age := EffectiveAge(profile.age);
    match PlanTypeOf(goal.currentWeight, goal.targetWeight)
    case Err(e) => Err(e)
    case Ok(t) =>
      var l := WorkoutLevel(age, CategoryOf(bmi));
      var d := Some(profile.dietPreference);
      Ok(Assignment(First(workouts, (w: WorkoutPlan) => WorkoutMatches(t, l, w)), First(diets, (p: DietPlan) => DietMatches(t, d, p))))
  }

  /** Whatever the assigner picks carries the goal's direction, the level
      the profile calls for, and the user's diet preference. */
  lemma AssignedPlansFitTheGoal(profile: UserProfile, records: seq<BmiRecord>, goal: UserGoal,
                                workouts: seq<WorkoutPlan>, diets: seq<DietPlan>)
    requires AutoAssignPlan(profile, records, goal, workouts, diets).Ok?
    ensures var a := AutoAssignPlan(profile, records, goal, workouts, diets).value;
      var t := PlanTypeOf(goal.currentWeight, goal.targetWeight).value;
      && (a.workout.Some? ==>
            && a.workout.value in workouts
            && a.workout.value.planType == t
            && a.workout.value.level != Advanced
            && (a.workout.value.level == Beginner <==>
                  EffectiveAge(profile.age) > 45 || LatestBmi(records, goal.user) >= 25.0))
      && (a.diet.Some? ==>
            && a.diet.value in diets
            && a.diet.value.planType == t
            && a.diet.value.dietType == profile.dietPreference)
  {
    WorkoutLevelByBmi(EffectiveAge(profile.age), LatestBmi(records, goal.user));
  }

  /** The `profile` view's suggestion for the user's latest goal: the same
      gain-or-loss rule, the first workout plan of that type at any level,
      and the first diet plan of that type for the goal's own diet type. */
  function ProfileSuggestion(goals: seq<UserGoal>, user: nat, workouts: seq<WorkoutPlan>, diets: seq<DietPlan>):
    (r: Result<Assignment, AssignError>)
    ensures LatestGoal(goals, user, None).None? ==> r == Ok(Assignment(None, None))
    ensures LatestGoal(goals, user, None).Some? ==>
      var g := LatestGoal(goals, user, None).value;
      && (r.Err? <==> PlanTypeOf(g.currentWeight, g.targetWeight).Err?)
      && (r.Ok? ==>
            var t := PlanTypeOf(g.currentWeight, g.targetWeight).value;
            && (r.value.workout.None? <==> forall i :: 0 <= i < |workouts| ==> workouts[i].planType != t)
            && (r.value.workout.Some? ==>
                  exists i :: 0 <= i < |workouts| && workouts[i] == r.value.workout.value
                    && workouts[i].planType == t
                    && forall j :: 0 <= j < i ==> workouts[j].planType != t)
            && (r.value.diet.None? <==> forall i :: 0 <= i < |diets| ==> !DietMatches(t, g.dietType, diets[i]))
            && (r.value.diet.Some? ==> EarliestDiet(diets, t, g.dietType, r.value.diet.value)))
  {
    match LatestGoal(goals, user, None)
    case None => Ok(Assignment(None, None))
    case Some(g) =>
      match PlanTypeOf(g.currentWeight, g.targetWeight)
      case Err(e) => Err(e)
      case Ok(t) =>
        Ok(Assignment(First(workouts, (w: WorkoutPlan) => w.planType == t), First(diets, (p: DietPlan) => DietMatches(t, g.dietType, p))))
  }

  /** The profile page and the assigner agree on the newest goal: both fail
      exactly when its weights cannot be compared; when the goal's diet type
      is the profile's preference they suggest the same diet; and whenever
      the assigner finds a workout, the profile page shows one too. */
  lemma SuggestionAgreesWithAssigner(goals: seq<UserGoal>, user: nat, profile: UserProfile, records: seq<BmiRecord>,
                                     workouts: seq<WorkoutPlan>, diets: seq<DietPlan>)
    requires LatestGoal(goals, user, None).Some?
    ensures var g := LatestGoal(goals, user, None).value;
      var s := ProfileSuggestion(goals, user, workouts, diets);
      var a := AutoAssignPlan(profile, records, g, workouts, diets);
      && (s.Ok? <==> a.Ok?)
      && (a.Ok? && g.dietType == Some(profile.dietPreference) ==> s.value.diet == a.value.diet)
      && (a.Ok? && a.value.workout.Some? ==> s.value.workout.Some?)
  {
    var g := LatestGoal(goals, user, None).value;
    var s := ProfileSuggestion(goals, user, workouts, diets);
    var a := AutoAssignPlan(profile, records, g, workouts, diets);
    if a.Ok? && g.dietType == Some(profile.dietPreference) && a.value.diet.Some? {
      EarliestDietUnique(diets, PlanTypeOf(g.currentWeight, g.targetWeight).value, g.dietType, s.value.diet.value, a.value.diet.value);
    }
  }
}

=== FILE: bmi.dfy ===
/** BMI classification (mainapp/utils.py `get_bmi_category`, and the
    capitalised copy inside `bmi_view`). BMI values are exact reals.
 */
module Bmi {
  import opened Text

  datatype Category = Underweight | Normal | Overweight | Obese

  /** The three boundaries, ascending; a category starts at its boundary. */
  const Thresholds: seq<real> := [18.5, 25.0, 30.0]

  /** The default BMI the plan assigner and the dashboard use without a record. */
  const DefaultBmi: real := 22.0

  /** Position of a category on the scale, lightest first. */
  function Rank(c: Category): nat {
    match c
    case Underweight => 0
    case Normal => 1
    case Overweight => 2
    case Obese => 3
  }

  /** How many boundaries `bmi` has reached: an independent reading of the
      threshold table. */
  function Crossed(bmi: real, ts: seq<real>): (n: nat)
    ensures n <= |ts|
  {
    if |ts| == 0 then 0
    else (if ts[0] <= bmi then 1 else 0) + Crossed(bmi, ts[1..])
  }

  /** `get_bmi_category`: each category holds exactly one half-open band. */
  function CategoryOf(bmi: real): (c: Category)
    ensures c == Underweight <==> bmi < 18.5
    ensures c == Normal <==> 18.5 <= bmi < 25.0
    ensures c == Overweight <==> 25.0 <= bmi < 30.0
    ensures c == Obese <==> 30.0 <= bmi
  {
    if bmi < 18.5 then Underweight
    else if bmi < 25.0 then Normal
    else if bmi < 30.0 then Overweight
    else Obese
  }

  /** The category's rank is the number of boundaries reached. */
  lemma RankIsThresholdsCrossed(bmi: real)
    ensures Rank(CategoryOf(bmi)) == Crossed(bmi, Thresholds)
  {
    var t1, t2, t3: seq<real> := [25.0, 30.0], [30.0], [];
    assert Thresholds[1..] == t1 && t1[1..] == t2 && t2[1..] == t3;
    assert Crossed(bmi, t2) == if 30.0 <= bmi then 1 else 0;
    assert Crossed(bmi, t1) == (if 25.0 <= bmi then 1 else 0) + Crossed(bmi, t2);
    assert Crossed(bmi, Thresholds) == (if 18.5 <= bmi then 1 else 0) + Crossed(bmi, t1);
  }

  /** A heavier BMI never lands in a lighter category. */
  lemma CategoryMonotone(lo: real, hi: real)
    requires lo <= hi
    ensures Rank(CategoryOf(lo)) <= Rank(CategoryOf(hi))
  {
  }

  /** The default BMI is a normal one. */
  lemma DefaultBmiIsNormal()
    ensures CategoryOf(DefaultBmi) == Normal
  {
  }

  /** The name `get_bmi_category` returns. */
  function CategoryName(c: Category): string {
    match c
    case Underweight => "underweight"
    case Normal => "normal"
    case Overweight => "overweight"
    case Obese => "obese"
  }

  /** The label `bmi_view` computes inline with its own copy of the thresholds. */
  function InlineLabel(bmi: real): (name: string)
    ensures name in {"Underweight", "Normal", "Overweight", "Obese"}
    ensures name == "Underweight" <==> bmi < 18.5
    ensures name == "Obese" <==> bmi >= 30.0
  {
    if bmi < 18.5 then "Underweight"
    else if bmi < 25.0 then "Normal"
    else if bmi < 30.0 then "Overweight"
    else "Obese"
  }

  /** The inline copy agrees with the shared rule: its label is the
      capitalised category name, for every BMI. */
  lemma InlineLabelAgrees(bmi: real)
    ensures InlineLabel(bmi) == Capitalize(CategoryName(CategoryOf(bmi)))
  {
    match CategoryOf(bmi)
    case Underweight => CapitalizeWord("underweight", "Underweight");
    case Normal => CapitalizeWord("normal", "Normal");
    case Overweight => CapitalizeWord("overweight", "Overweight");
    case Obese => CapitalizeWord("obese", "Obese");
  }

  lemma CapitalizeWord(w: string, cap: string)
    requires |w| > 0 && |cap| == |w|
    requires forall i :: 0 <= i < |w| ==> IsLowerChar(w[i])
    requires cap[0] == UpperChar(w[0]) && cap[1..] == w[1..]
    ensures Capitalize(w) == cap
  {
    CapitalizeLowerWord(w);
  }

  lemma CapitalizeLowerWord(w: string)
    requires |w| > 0
    requires forall i :: 0 <= i < |w| ==> IsLowerChar(w[i])
    ensures Capitalize(w) == [UpperChar(w[0])] + w[1..]
  {
    LowerOfLowered(w[1..]);
  }

  /** Category names are distinct and lower-case, so a stored label reads
      back as one category only. */
  lemma CategoryNamesDistinct(a: Category, b: Category)
    ensures CategoryName(a) == CategoryName(b) <==> a == b
  {
  }
}

=== FILE: fixtures.dfy ===
/** The seed catalog (mainapp/Script.py/populate_workoutplans.py and
    populate_dietplans.py) and what the plan assigner picks from it for a
    few typical users.
 */
module Fixtures {
  import opened Wrappers
  import opened Models
  import opened Assign

  const SeedWorkouts: seq<WorkoutPlan> := [
    WorkoutPlan(1, "Gain Beginner 1", Gain, Beginner, GainBeginnerRoutine),
    WorkoutPlan(2, "Gain Intermediate 1", Gain, Intermediate, GainIntermediateRoutine),
    WorkoutPlan(3, "Loss Beginner 1", Loss, Beginner, LossBeginnerRoutine),
    WorkoutPlan(4, "Loss Intermediate 1", Loss, Intermediate, LossIntermediateRoutine)
  ]

  const SeedDiets: seq<DietPlan> := [
    DietPlan(1, "Gain Plan 1", Gain, Veg, 3000, GainVegMeals, None),
    DietPlan(2, "Gain Plan 2", Gain, NonVeg, 3200, GainNonVegMeals, None),
    DietPlan(3, "Loss Plan 1", Loss, Veg, 1800, LossVegMeals, None),
    DietPlan(4, "Loss Plan 2", Loss, NonVeg, 2000, LossNonVegMeals, None)
  ]

  // The descriptions and menus of the seed plans, word for word.
  const GainBeginnerRoutine := "3x per week: Squats, Bench Press, Deadlift, Pull-ups, Core exercises"
  const GainIntermediateRoutine := "4x per week: Compound lifts + accessory exercises for arms, chest, back"
  const LossBeginnerRoutine := "3x per week: Cardio 30min, Bodyweight exercises, Core"
  const LossIntermediateRoutine := "4x per week: HIIT 20min, Strength circuits, Cardio 20min"
  const GainVegMeals :=
    "Breakfast: Oats + Milk + Banana\nSnack: Nuts + Yogurt\nLunch: Rice + Dal + Paneer + Veg\nSnack: Smoothie\nDinner: Chapati + Lentils + Veg"
  const GainNonVegMeals :=
    "Breakfast: Eggs + Toast + Milk\nSnack: Protein Shake + Nuts\nLunch: Chicken + Rice + Veg\nSnack: Peanut Butter Sandwich\nDinner: Fish + Quinoa + Veg"
  const LossVegMeals :=
    "Breakfast: Oats + Berries\nSnack: Fruit\nLunch: Salad + Lentils\nSnack: Yogurt\nDinner: Soup + Veg"
  const LossNonVegMeals :=
    "Breakfast: Eggs + Veg\nSnack: Protein Shake\nLunch: Chicken + Salad\nSnack: Fruit\nDinner: Fish + Veg"

  function Profile(age: int, diet: DietType): UserProfile {
    NewProfile().(age := Some(age), dietPreference := diet)
  }

  function Goal(current: real, target: real): UserGoal {
    NewGoal(1, 7, Some(current), Some(target), Some(30), Some(Veg), 0)
  }

  /** The seed catalog covers every type and the two levels the assigner
      picks, for vegetarian and non-vegetarian users alike. */
  lemma SeedCatalogCoversAssigner(t: PlanType, l: Level, d: DietType)
    requires l != Advanced && d != Vegan
    ensures exists i :: 0 <= i < |SeedWorkouts| && WorkoutMatches(t, l, SeedWorkouts[i])
    ensures exists i :: 0 <= i < |SeedDiets| && DietMatches(t, Some(d), SeedDiets[i])
  {
    var w := if t == Gain then (if l == Beginner then 0 else 1) else (if l == Beginner then 2 else 3);
    var p := if t == Gain then (if d == Veg then 0 else 1) else (if d == Veg then 2 else 3);
    assert WorkoutMatches(t, l, SeedWorkouts[w]);
    assert DietMatches(t, Some(d), SeedDiets[p]);
  }

  /** The type, level and diet type of each seed plan. */
  lemma SeedShape()
    ensures |SeedWorkouts| == 4 && |SeedDiets| == 4
    ensures SeedWorkouts[0].planType == Gain && SeedWorkouts[0].level == Beginner
    ensures SeedWorkouts[1].planType == Gain && SeedWorkouts[1].level == Intermediate
    ensures SeedWorkouts[2].planType == Loss && SeedWorkouts[2].level == Beginner
    ensures SeedWorkouts[3].planType == Loss && SeedWorkouts[3].level == Intermediate
    ensures SeedDiets[0].planType == Gain && SeedDiets[0].dietType == Veg
    ensures SeedDiets[1].planType == Gain && SeedDiets[1].dietType == NonVeg
    ensures SeedDiets[2].planType == Loss && SeedDiets[2].dietType == Veg
    ensures SeedDiets[3].planType == Loss && SeedDiets[3].dietType == NonVeg
  {
  }

  /** The workout the assigner picks when `k` is the only catalog entry of
      type `t` and level `l`. */
  lemma PicksOnlyWorkout(profile: UserProfile, goal: UserGoal, t: PlanType, l: Level, k: nat)
    requires PlanTypeOf(goal.currentWeight, goal.targetWeight) == Ok(t)
    requires WorkoutLevel(EffectiveAge(profile.age), Bmi.CategoryOf(LatestBmi([], goal.user))) == l
    requires k < |SeedWorkouts| && WorkoutMatches(t, l, SeedWorkouts[k])
    requires forall j :: 0 <= j < |SeedWorkouts| && j != k ==> !WorkoutMatches(t, l, SeedWorkouts[j])
    ensures AutoAssignPlan(profile, [], goal, SeedWorkouts, SeedDiets).Ok?
    ensures AutoAssignPlan(profile, [], goal, SeedWorkouts, SeedDiets).value.workout == Some(SeedWorkouts[k])
  {
  }

  /** The diet the assigner picks when `k` is the only catalog entry of type
      `t` for the profile's diet preference, or none when there is none. */
  lemma PicksOnlyDiet(profile: UserProfile, goal: UserGoal, t: PlanType, k: int)
    requires PlanTypeOf(goal.currentWeight, goal.targetWeight) == Ok(t)
    requires k < |SeedDiets|
    requires 0 <= k ==> DietMatches(t, Some(profile.dietPreference), SeedDiets[k])
    requires forall j :: 0 <= j < |SeedDiets| && j != k ==> !DietMatches(t, Some(profile.dietPreference), SeedDiets[j])
    ensures AutoAssignPlan(profile, [], goal, SeedWorkouts, SeedDiets).Ok?
    ensures AutoAssignPlan(profile, [], goal, SeedWorkouts, SeedDiets).value.diet
         == if k < 0 then None else Some(SeedDiets[k])
  {
  }

  /** A vegetarian aged 30 with no BMI record, going from 80 kg to 70 kg,
      gets the intermediate loss workout and the first vegetarian loss diet. */
  lemma LossExample()
    ensures AutoAssignPlan(Profile(30, Veg), [], Goal(80.0, 70.0), SeedWorkouts, SeedDiets)
         == Ok(Assignment(Some(SeedWorkouts[3]), Some(SeedDiets[2])))
  {
    SeedShape();
    DefaultBmiIsNormalHere();
    PicksOnlyWorkout(Profile(30, Veg), Goal(80.0, 70.0), Loss, Intermediate, 3);
    PicksOnlyDiet(Profile(30, Veg), Goal(80.0, 70.0), Loss, 2);
  }

  /** A non-vegetarian aged 50 going from 60 kg to 70 kg gets the beginner
      gain workout, age alone deciding the level. */
  lemma GainExample()
    ensures AutoAssignPlan(Profile(50, NonVeg), [], Goal(60.0, 70.0), SeedWorkouts, SeedDiets)
         == Ok(Assignment(Some(SeedWorkouts[0]), Some(SeedDiets[1])))
  {
    SeedShape();
    PicksOnlyWorkout(Profile(50, NonVeg), Goal(60.0, 70.0), Gain, Beginner, 0);
    PicksOnlyDiet(Profile(50, NonVeg), Goal(60.0, 70.0), Gain, 1);
  }

  /** The seed catalog has no vegan diet: a vegan user gets a workout and
      no diet. */
  lemma VeganExample()
    ensures AutoAssignPlan(Profile(30, Vegan), [], Goal(80.0, 70.0), SeedWorkouts, SeedDiets)
         == Ok(Assignment(Some(SeedWorkouts[3]), None))
  {
    SeedShape();
    DefaultBmiIsNormalHere();
    PicksOnlyWorkout(Profile(30, Vegan), Goal(80.0, 70.0), Loss, Intermediate, 3);
    PicksOnlyDiet(Profile(30, Vegan), Goal(80.0, 70.0), Loss, -1);
  }

  lemma DefaultBmiIsNormalHere()
    ensures WorkoutLevel(EffectiveAge(Some(30)), Bmi.CategoryOf(LatestBmi([], 7))) == Intermediate
  {
  }
}

=== FILE: goals.dfy ===
/** Goal intake (the POST branches of the `weight_gain` and `weight_loss`
    views) and the staff goal dashboard (`goal_dashboard`), in
    mainapp/views.py. A view acts on the goal table and the profile table;
    today's date is a parameter.
 */
module Goals {
  import opened Wrappers
  import opened Query
  import opened Models
  import opened Assign
  import Schedule

  // ---------------------------------------------------------------------
  // The goal table
  // ---------------------------------------------------------------------

  /** Primary keys ascend along the table. */
  predicate GoalIdsAscending(goals: seq<UserGoal>) {
    forall i, j :: 0 <= i < j < |goals| ==> goals[i].id < goals[j].id
  }

  /** The key the database hands the next row: one past the newest. */
  function NextGoalId(goals: seq<UserGoal>): (id: nat)
    ensures GoalIdsAscending(goals) ==> forall i :: 0 <= i < |goals| ==> goals[i].id < id
  {
    if |goals| == 0 then 1 else goals[|goals| - 1].id + 1
  }

  /** Append a freshly created goal; ids keep ascending. */
  function CreateGoal(goals: seq<UserGoal>, user: nat, currentWeight: Option<real>, targetWeight: Option<real>,
                      durationDays: Option<int>, dietType: Option<DietType>, today: int): (r: seq<UserGoal>)
    requires GoalIdsAscending(goals)
    ensures |r| == |goals| + 1 && r[..|goals|] == goals
    ensures GoalIdsAscending(r)
    ensures var g := r[|goals|];
      && g.user == user && g.status == Pending && g.workoutPlan.None? && g.dietPlan.None?
      && g.currentWeight == currentWeight && g.targetWeight == targetWeight
      && g.durationDays == durationDays && g.dietType == dietType && g.startDate == today
  {
    goals + [NewGoal(NextGoalId(goals), user, currentWeight, targetWeight, durationDays, dietType, today)]
  }

  // ---------------------------------------------------------------------
  // Intake
  // ---------------------------------------------------------------------

  /** The cleaned data of a valid `WeightGainForm`: every field is required. */
  datatype GainForm = GainForm(height: real, currentWeight: real, targetGain: real, duration: int)

  /** The cleaned data of a valid `WeightLossForm`. */
  datatype LossForm = LossForm(currentWeight: real, targetWeight: real, durationDays: int, dietType: DietType)

  /** What a POST to the gain or loss page does. A user who already has an
      assigned goal is shown the plan and nothing is stored. The gain page's
      `update_or_create` passes a `goal` value the profile has no column for,
      which the create path rejects, so a user without a profile gets an
      error and no goal. */
  datatype IntakeOutcome =
    | PlanShown
    | Submitted(goals: seq<UserGoal>, profiles: map<nat, UserProfile>)
    | ProfileNotCreatable

  predicate HasAssignedGoal(goals: seq<UserGoal>, user: nat) {
    exists i :: 0 <= i < |goals| && goals[i].user == user && goals[i].status == Assigned
  }

  /** The gain intake as the view is written: the amount to gain is stored
      as the target weight, and the height, duration and diet type are read
      under keys the form does not have, so they come out as 0, 0 and none. */
  function GainIntakeAsWritten(goals: seq<UserGoal>, profiles: map<nat, UserProfile>, user: nat,
                               form: GainForm, today: int): (r: IntakeOutcome)
    requires GoalIdsAscending(goals)
    ensures r == PlanShown <==> HasAssignedGoal(goals, user)
    ensures r == ProfileNotCreatable <==> !HasAssignedGoal(goals, user) && user !in profiles
    ensures r.Submitted? ==>
      && |r.goals| == |goals| + 1 && r.goals[..|goals|] == goals
      && FreshGoalOf(r.goals[|goals|], user, today)
      && r.goals[|goals|].currentWeight == Some(form.currentWeight)
      && r.goals[|goals|].targetWeight == Some(form.targetGain)
      && r.goals[|goals|].durationDays == Some(0)
      && r.goals[|goals|].dietType.None?
      && GoalIdsAscending(r.goals)
      && r.profiles.Keys == profiles.Keys
      && user in profiles
      && r.profiles[user] == profiles[user].(heightCm := Some(0.0), weightKg := Some(form.currentWeight))
      && (forall u :: u in profiles && u != user ==> r.profiles[u] == profiles[u])
  {
    if LatestGoal(goals, user, Some(Assigned)).Some? then PlanShown
    else if user !in profiles then ProfileNotCreatable
    else
      var p := profiles[user];
      Submitted(CreateGoal(goals, user, Some(form.currentWeight), Some(form.targetGain), Some(0), None, today),
                profiles[user := p.(heightCm := Some(0.0), weightKg := Some(form.currentWeight))])
  }

  /** The gain intake as the form means it: the target is the current weight
      plus the gain, and the height and duration are the ones entered. The
      form asks for no diet type, so the goal still has none. */
  function GainIntake(goals: seq<UserGoal>, profiles: map<nat, UserProfile>, user: nat,
                      form: GainForm, today: int): (r: IntakeOutcome)
    requires GoalIdsAscending(goals)
    ensures r == PlanShown <==> HasAssignedGoal(goals, user)
    ensures r == ProfileNotCreatable <==> !HasAssignedGoal(goals, user) && user !in profiles
    ensures r.Submitted? ==>
      && GoalIdsAscending(r.goals)
      && |r.goals| == |goals| + 1 && r.goals[..|goals|] == goals
      && FreshGoalOf(r.goals[|goals|], user, today)
      && r.goals[|goals|].currentWeight == Some(form.currentWeight)
      && r.goals[|goals|].targetWeight == Some(form.currentWeight + form.targetGain)
      && r.goals[|goals|].durationDays == Some(form.duration)
      && r.goals[|goals|].dietType.None?
      && r.profiles.Keys == profiles.Keys
      && user in profiles
      && r.profiles[user] == profiles[user].(heightCm := Some(form.height), weightKg := Some(form.currentWeight))
      && forall u :: u in profiles && u != user ==> r.profiles[u] == profiles[u]
  {
    if LatestGoal(goals, user, Some(Assigned)).Some? then PlanShown
    else if user !in profiles then ProfileNotCreatable
    else
      var p := profiles[user];
      Submitted(CreateGoal(goals, user, Some(form.currentWeight), Some(form.currentWeight + form.targetGain),
                           Some(form.duration), None, today),
                profiles[user := p.(heightCm := Some(form.height), weightKg := Some(form.currentWeight))])
  }

  /** The loss intake: the form's four values, stored as entered. */
  function LossIntake(goals: seq<UserGoal>, profiles: map<nat, UserProfile>, user: nat,
                      form: LossForm, today: int): (r: IntakeOutcome)
    requires GoalIdsAscending(goals)
    ensures !r.ProfileNotCreatable?
    ensures r == PlanShown <==> HasAssignedGoal(goals, user)
    ensures r.Submitted? ==>
      && GoalIdsAscending(r.goals) && r.profiles == profiles
      && |r.goals| == |goals| + 1 && r.goals[..|goals|] == goals
      && FreshGoalOf(r.goals[|goals|], user, today)
  {
    if LatestGoal(goals, user, Some(Assigned)).Some? then PlanShown
    else
      Submitted(CreateGoal(goals, user, Some(form.currentWeight), Some(form.targetWeight),
                           Some(form.durationDays), Some(form.dietType), today), profiles)
  }

  /** A submitted goal is pending, has no plans and belongs to the user. */
  predicate FreshGoalOf(g: UserGoal, user: nat, today: int) {
    g.user == user && g.status == Pending && g.workoutPlan.None? && g.dietPlan.None? && g.startDate == today
  }

  /** The corrected gain intake stores a goal that every reader of the
      goal table takes for a gain whenever both weights are positive,
      carrying the entered duration, and records the entered height and
      weight on the profile. */
  lemma GainIntakeMeansGain(goals: seq<UserGoal>, profiles: map<nat, UserProfile>, user: nat,
                            form: GainForm, today: int)
    requires GoalIdsAscending(goals)
    ensures var r := GainIntake(goals, profiles, user, form, today);
      r.Submitted? ==>
        var g := r.goals[|goals|];
        && FreshGoalOf(g, user, today)
        && g.targetWeight == Some(form.currentWeight + form.targetGain)
        && (form.currentWeight > 0.0 && form.targetGain > 0.0 ==>
              PlanTypeOf(g.currentWeight, g.targetWeight) == Ok(Gain) && GoalType(g) == Some(Gain))
        && g.durationDays == Some(form.duration)
        && (form.duration > 0 ==> Schedule.DayCount(g.durationDays) == form.duration)
        && r.profiles[user].heightCm == Some(form.height)
        && r.profiles[user].weightKg == Some(form.currentWeight)
  {
  }

  /** Read back, a gain goal as written is a loss whenever the amount to
      gain is smaller than the current weight: 70 kg plus 5 kg is assigned
      loss plans. */
  lemma GainStoredAsLoss(goals: seq<UserGoal>, profiles: map<nat, UserProfile>, user: nat,
                         form: GainForm, today: int)
    requires GoalIdsAscending(goals)
    requires 0.0 < form.targetGain < form.currentWeight
    ensures var r := GainIntakeAsWritten(goals, profiles, user, form, today);
      r.Submitted? ==>
        var g := r.goals[|goals|];
        PlanTypeOf(g.currentWeight, g.targetWeight) == Ok(Loss) && GoalType(g) == Some(Loss)
  {
  }

  /** The concrete case: no goals yet, a profile, and the form
      170 cm / 70 kg / gain 5 kg / 60 days. The goal written reads as loss,
      runs 30 days on the plan page instead of 60, and the profile's height
      becomes 0. */
  lemma GainIntakeCounterexample(p: UserProfile)
    ensures var r := GainIntakeAsWritten([], map[7 := p], 7, GainForm(170.0, 70.0, 5.0, 60), 0);
      && r.Submitted?
      && PlanTypeOf(r.goals[0].currentWeight, r.goals[0].targetWeight) == Ok(Loss)
      && Schedule.DayCount(r.goals[0].durationDays) == 30
      && r.profiles[7].heightCm == Some(0.0)
    ensures var r := GainIntake([], map[7 := p], 7, GainForm(170.0, 70.0, 5.0, 60), 0);
      && r.Submitted?
      && PlanTypeOf(r.goals[0].currentWeight, r.goals[0].targetWeight) == Ok(Gain)
      && Schedule.DayCount(r.goals[0].durationDays) == 60
      && r.profiles[7].heightCm == Some(170.0)
  {
    var goals: seq<UserGoal> := [];
    assert !HasAssignedGoal(goals, 7);
  }

  /** The duration the gain form asks for never reaches the goal as
      written: every such goal is stored with duration 0, which the plan
      page reads as the 30-day default and `user_plan_view` as no days. */
  lemma GainDurationIgnored(goals: seq<UserGoal>, profiles: map<nat, UserProfile>, user: nat,
                            form: GainForm, today: int)
    requires GoalIdsAscending(goals)
    ensures var r := GainIntakeAsWritten(goals, profiles, user, form, today);
      r.Submitted? ==>
        Schedule.DayCount(r.goals[|goals|].durationDays) == Schedule.DefaultDuration
  {
  }

  /** A gain goal has no diet type, so its plan page lists no meals: the
      diet filter matches no plan. */
  lemma GainGoalsGetNoMeals(goals: seq<UserGoal>, profiles: map<nat, UserProfile>, user: nat,
                            form: GainForm, today: int, diets: seq<DietPlan>)
    requires GoalIdsAscending(goals)
    ensures var r := GainIntake(goals, profiles, user, form, today);
      r.Submitted? ==> Schedule.DayMeals(Gain, r.goals[|goals|].dietType, diets) == []
  {
    FilterEmpty(diets, (p: DietPlan) => DietMatches(Gain, None, p));
  }

  /** The loss intake stores the entered values on a fresh pending goal,
      and with a truthy target below the current weight that goal is a loss
      to both the assigner and the `goal_type` property. */
  lemma LossIntakeMeansLoss(goals: seq<UserGoal>, profiles: map<nat, UserProfile>, user: nat,
                            form: LossForm, today: int)
    requires GoalIdsAscending(goals)
    ensures var r := LossIntake(goals, profiles, user, form, today);
      r.Submitted? ==>
        var g := r.goals[|goals|];
        && FreshGoalOf(g, user, today)
        && g.currentWeight == Some(form.currentWeight) && g.targetWeight == Some(form.targetWeight)
        && g.durationDays == Some(form.durationDays) && g.dietType == Some(form.dietType)
        && (0.0 < form.targetWeight < form.currentWeight ==>
              PlanTypeOf(g.currentWeight, g.targetWeight) == Ok(Loss) && GoalType(g) == Some(Loss))
  {
  }

  // ---------------------------------------------------------------------
  // goal_dashboard
  // ---------------------------------------------------------------------

  /** The `action` field of the dashboard's POST. */
  datatype Action = Approve | Reject | AutoAssign | OtherAction

  function ParseAction(field: Option<string>): (a: Action)
    ensures a == Approve <==> field == Some("approve")
    ensures a == Reject <==> field == Some("reject")
    ensures a == AutoAssign <==> field == Some("auto_assign")
  {
    if field == Some("approve") then Approve
    else if field == Some("reject") then Reject
    else if field == Some("auto_assign") then AutoAssign
    else OtherAction
  }

  /** How a dashboard POST fails: no goal with that id, a goal owner
      without a profile (`user.userprofile`), or weights the assigner
      cannot compare. */
  datatype DashboardError = GoalNotFound | ProfileMissing | WeightsNotComparable

  /** The columns no status change touches. */
  predicate SameGoalData(a: UserGoal, b: UserGoal) {
    && a.id == b.id && a.user == b.user && a.startDate == b.startDate
    && a.currentWeight == b.currentWeight && a.targetWeight == b.targetWeight
    && a.durationDays == b.durationDays && a.dietType == b.dietType
  }

  /** The change one action makes to one goal. */
  function ApplyAction(g: UserGoal, action: Action, profile: Option<UserProfile>, records: seq<BmiRecord>,
                       workouts: seq<WorkoutPlan>, diets: seq<DietPlan>): (r: Result<UserGoal, DashboardError>)
    ensures r.Ok? ==> SameGoalData(r.value, g)
    ensures action == Approve || action == Reject ==>
      && r.Ok? && r.value.workoutPlan == g.workoutPlan && r.value.dietPlan == g.dietPlan
      && r.value.status == (if action == Approve then Approved else Rejected)
    ensures action == OtherAction ==> r == Ok(g)
    ensures action == AutoAssign ==>
      && (r == Err(ProfileMissing) <==> profile.None?)
      && (r == Err(WeightsNotComparable) <==> profile.Some? && PlanTypeOf(g.currentWeight, g.targetWeight).Err?)
      && (r.Ok? ==>
            var a := AutoAssignPlan(profile.value, records, g, workouts, diets).value;
            r.value.status == Approved && r.value.workoutPlan == a.workout && r.value.dietPlan == a.diet)
    ensures r != Err(GoalNotFound)
  {
    match action
    case Approve => Ok(g.(status := Approved))
    case Reject => Ok(g.(status := Rejected))
    case OtherAction => Ok(g)
    case AutoAssign =>
      if profile.None? then Err(ProfileMissing)
      else
        match AutoAssignPlan(profile.value, records, g, workouts, diets)
        case Err(_) => Err(WeightsNotComparable)
        case Ok(a) => Ok(g.(workoutPlan := a.workout, dietPlan := a.diet, status := Approved))
  }

  /** The position of the goal with a given id. */
  function FindGoal(goals: seq<UserGoal>, id: nat): (k: Option<nat>)
    ensures k.None? <==> forall i :: 0 <= i < |goals| ==> goals[i].id != id
    ensures k.Some? ==>
      && k.value < |goals| && goals[k.value].id == id
      && forall j :: 0 <= j < k.value ==> goals[j].id != id
  {
    if |goals| == 0 then None
    else if goals[0].id == id then Some(0)
    else
      var k := FindGoal(goals[1..], id);
      assert forall i :: 1 <= i < |goals| ==> goals[i] == goals[1..][i - 1];
      if k.None? then None else Some(k.value + 1)
  }

  /** `goal.user.userprofile`, which raises when the owner has none. */
  function OwnerProfile(store: Store, g: UserGoal): (p: Option<UserProfile>)
    ensures p.None? <==> g.user !in store.profiles
    ensures p.Some? ==> store.profiles[g.user] == p.value
  {
    if g.user in store.profiles then Some(store.profiles[g.user]) else None
  }

  /** A dashboard POST: look the goal up by id, apply the action, save it.
      Only that goal changes. */
  function GoalDashboardPost(store: Store, goalId: nat, action: Option<string>): (r: Result<seq<UserGoal>, DashboardError>)
    ensures r == Err(GoalNotFound) <==> forall i :: 0 <= i < |store.goals| ==> store.goals[i].id != goalId
    ensures r.Ok? ==>
      && |r.value| == |store.goals|
      && exists k :: 0 <= k < |store.goals| && store.goals[k].id == goalId
           && SameGoalData(r.value[k], store.goals[k])
           && Ok(r.value[k]) == ApplyAction(store.goals[k], ParseAction(action), OwnerProfile(store, store.goals[k]),
                                            store.records, store.workouts, store.diets)
           && forall j :: 0 <= j < |store.goals| && j != k ==> r.value[j] == store.goals[j]
    ensures FindGoal(store.goals, goalId).Some? ==>
      var k := FindGoal(store.goals, goalId).value;
      var a := ApplyAction(store.goals[k], ParseAction(action), OwnerProfile(store, store.goals[k]),
                           store.records, store.workouts, store.diets);
      && (r.Ok? <==> a.Ok?)
      && (a.Err? ==> r == Err(a.error))
      && (a.Ok? ==> r.value[k] == a.value)
  {
    match FindGoal(store.goals, goalId)
    case None => Err(GoalNotFound)
    case Some(k) =>
      var g := store.goals[k];
      match ApplyAction(g, ParseAction(action), OwnerProfile(store, g), store.records, store.workouts, store.diets)
      case Err(e) => Err(e)
      case Ok(g') => Ok(store.goals[k := g'])
  }

  /** Every action the dashboard offers moves the goal out of `pending`, and
      none of them moves it to `assigned`. */
  lemma DashboardNeverAssigns(g: UserGoal, action: Action, profile: Option<UserProfile>, records: seq<BmiRecord>,
                              workouts: seq<WorkoutPlan>, diets: seq<DietPlan>)
    ensures var r := ApplyAction(g, action, profile, records, workouts, diets);
      && (r.Ok? && action != OtherAction ==> r.value.status in {Approved, Rejected})
      && (r.Ok? && r.value.status == Assigned ==> g.status == Assigned)
  {
  }
}

=== FILE: metrics.dfy ===
/** The metric recorder (mainapp/views.py): `bmi_view` records one BMI
    measurement, `body_fat_view` computes a body-fat estimate, and
    `dashboard` summarises the latest measurements and their trends.
    Arithmetic is exact; the source's `round(..., 2)` is not modelled.
 */
module Metrics {
  import opened Wrappers
  import opened Query
  import opened Text
  import opened Models
  import opened Bmi

  // ---------------------------------------------------------------------
  // Form input
  // ---------------------------------------------------------------------

  /** A posted form value: missing or empty, text that parses, or text that
      does not. */
  datatype Field<T> = Blank | Value(v: T) | Malformed

  /** `float(request.POST.get(k) or default)` (or `int(...)`): a blank field
      takes the default and unparseable text raises, here `None`. */
  function Parse<T>(f: Field<T>, default: T): (r: Option<T>)
    ensures r.None? <==> f.Malformed?
    ensures f.Blank? ==> r == Some(default)
    ensures f.Value? ==> r == Some(f.v)
  {
    match f
    case Blank => Some(default)
    case Value(v) => Some(v)
    case Malformed => None
  }

  /** The two ways a metric form is turned away: a value that does not parse
      ("Please enter valid values") and a height that is not positive. */
  datatype MetricError = InvalidValues | HeightNotPositive

  // ---------------------------------------------------------------------
  // BMI
  // ---------------------------------------------------------------------

  /** `bmi` is the body-mass index of the weight at the height: times the
      square of the height in metres it gives back the weight. */
  predicate IsBmi(bmi: real, weightKg: real, heightCm: real) {
    bmi * (heightCm / 100.0) * (heightCm / 100.0) == weightKg
  }

  /** Weight over the square of the height in metres. */
  function BmiOf(weightKg: real, heightCm: real): (bmi: real)
    requires heightCm > 0.0
    ensures IsBmi(bmi, weightKg, heightCm)
  {
    var m := heightCm / 100.0;
    weightKg / (m * m)
  }

  /** At one height, a heavier weight gives a higher BMI. */
  lemma BmiIncreasesWithWeight(w1: real, w2: real, heightCm: real)
    requires heightCm > 0.0 && w1 < w2
    ensures BmiOf(w1, heightCm) < BmiOf(w2, heightCm)
  {
    var m := heightCm / 100.0;
    PositiveSquare(m);
    var sq := m * m;
    assert BmiOf(w1, heightCm) * sq == w1 && BmiOf(w2, heightCm) * sq == w2;
    CancelPositiveFactor(BmiOf(w1, heightCm), BmiOf(w2, heightCm), sq);
  }

  lemma CancelPositiveFactor(a: real, b: real, k: real)
    requires k > 0.0 && a * k < b * k
    ensures a < b
  {
  }

  lemma PositiveSquare(m: real)
    requires m > 0.0
    ensures m * m > 0.0
  {
  }

  /** Record ids grow with insertion order: the database's auto-increment key. */
  predicate IdsAscending(records: seq<BmiRecord>) {
    forall i, j :: 0 <= i < j < |records| ==> records[i].id < records[j].id
  }

  function NextId(records: seq<BmiRecord>): (id: nat)
    requires IdsAscending(records)
    ensures forall i :: 0 <= i < |records| ==> records[i].id < id
  {
    if |records| == 0 then 1 else records[|records| - 1].id + 1
  }

  /** The row condition of `filter(user=user)`. */
  function OwnedBy(user: nat): BmiRecord -> bool {
    (r: BmiRecord) => r.user == Some(user)
  }

  /** One user's records oldest first, `filter(user=user)`: a record of the
      table is among them exactly when it belongs to the user. */
  function RecordsOf(records: seq<BmiRecord>, user: nat): (mine: seq<BmiRecord>)
    ensures forall i :: 0 <= i < |mine| ==> mine[i].user == Some(user)
    ensures forall i :: 0 <= i < |records| ==> (records[i] in mine <==> records[i].user == Some(user))
  {
    Filter(records, OwnedBy(user))
  }

  /** One user's records newest first: the `order_by('-id')` of the
      dashboard and the assigner, applied to a table kept in ascending id
      order. */
  function NewestFirst(records: seq<BmiRecord>, user: nat): (newest: seq<BmiRecord>)
    ensures var mine := RecordsOf(records, user);
      && |newest| == |mine|
      && forall i :: 0 <= i < |mine| ==> newest[i] == mine[|mine| - 1 - i]
  {
    Reverse(RecordsOf(records, user))
  }

  /** A user's records keep the table's ascending ids. */
  lemma RecordsOfKeepsIdsAscending(records: seq<BmiRecord>, user: nat)
    requires IdsAscending(records)
    ensures IdsAscending(RecordsOf(records, user))
  {
    FilterKeepsIdsAscending(records, OwnedBy(user));
  }

  lemma {:induction false} FilterKeepsIdsAscending(records: seq<BmiRecord>, p: BmiRecord -> bool)
    requires IdsAscending(records)
    ensures IdsAscending(Filter(records, p))
  {
    if |records| != 0 {
      FilterKeepsIdsAscending(records[1..], p);
      var rest := Filter(records[1..], p);
      var mine := Filter(records, p);
      if p(records[0]) {
        assert mine == [records[0]] + rest;
        ConsAscending(records[0], rest);
      } else {
        assert mine == rest;
      }
    }
  }

  lemma ConsAscending(x: BmiRecord, rest: seq<BmiRecord>)
    requires IdsAscending(rest)
    requires forall i :: 0 <= i < |rest| ==> x.id < rest[i].id
    ensures IdsAscending([x] + rest)
  {
    var s := [x] + rest;
    forall i, j | 0 <= i < j < |s|
      ensures s[i].id < s[j].id
    {
      assert s[j] == rest[j - 1];
      if i > 0 {
        assert s[i] == rest[i - 1];
      }
    }
  }


  /** Read newest first, a user's records have strictly descending ids. */
  lemma NewestFirstDescends(records: seq<BmiRecord>, user: nat)
    requires IdsAscending(records)
    ensures forall i, j :: 0 <= i < j < |NewestFirst(records, user)| ==>
      NewestFirst(records, user)[i].id > NewestFirst(records, user)[j].id
  {
    RecordsOfKeepsIdsAscending(records, user);
  }

  /** The outcome of a successful BMI submission: the figure and label shown,
      and the tables after the write. */
  datatype BmiSaved = BmiSaved(bmi: real, category: string, records: seq<BmiRecord>, profiles: map<nat, UserProfile>)

  /** `bmi_view` on POST: parse both fields, refuse a height that is not
      positive, otherwise append one record and store the height and weight
      in the user's profile, creating the profile when it is missing. */
  function SubmitBmi(records: seq<BmiRecord>, profiles: map<nat, UserProfile>, user: nat,
                     weight: Field<real>, height: Field<real>): (r: Result<BmiSaved, MetricError>)
    requires IdsAscending(records)
    ensures r == Err(InvalidValues) <==> weight.Malformed? || height.Malformed?
    ensures r == Err(HeightNotPositive) <==>
      !weight.Malformed? && !height.Malformed? && Parse(height, 0.0).value <= 0.0
    ensures r.Ok? ==>
      var w, h := Parse(weight, 0.0).value, Parse(height, 0.0).value;
      var s := r.value;
      && h > 0.0
      && |s.records| == |records| + 1
      && s.records[..|records|] == records
      && IdsAscending(s.records)
      && s.records[|records|].user == Some(user)
      && s.records[|records|].weightKg == w
      && s.records[|records|].heightCm == h
      && s.records[|records|].bmi == s.bmi
      && s.records[|records|].category == s.category
      && IsBmi(s.bmi, w, h)
      && s.category == Capitalize(CategoryName(CategoryOf(s.bmi)))
    ensures r.Ok? ==>
      var w, h := Parse(weight, 0.0).value, Parse(height, 0.0).value;
      var p := r.value.profiles;
      && p.Keys == profiles.Keys + {user}
      && p[user].heightCm == Some(h) && p[user].weightKg == Some(w)
      && (user in profiles ==>
            p[user] == profiles[user].(heightCm := Some(h), weightKg := Some(w)))
      && (user !in profiles ==>
            p[user] == NewProfile().(heightCm := Some(h), weightKg := Some(w)))
      && forall u :: u in profiles && u != user ==> p[u] == profiles[u]
  {
    match (Parse(weight, 0.0), Parse(height, 0.0))
    case (Some(w), Some(h)) =>
      if h > 0.0 then
        var bmi := BmiOf(w, h);
        var category := InlineLabel(bmi);
        InlineLabelAgrees(bmi);
        var rec := BmiRecord(NextId(records), Some(user), w, h, bmi, category);
        Ok(BmiSaved(bmi, category, AppendRecord(records, rec), StoreMeasurements(profiles, user, w, h)))
      else Err(HeightNotPositive)
    case _ => Err(InvalidValues)
  }

  /** `BMIRecord.objects.create(...)`: the new row goes last, under a key
      above every other. */
  function AppendRecord(records: seq<BmiRecord>, rec: BmiRecord): (r: seq<BmiRecord>)
    requires IdsAscending(records)
    requires forall i :: 0 <= i < |records| ==> records[i].id < rec.id
    ensures |r| == |records| + 1 && r[..|records|] == records && r[|records|] == rec
    ensures IdsAscending(r)
  {
    assert (records + [rec])[..|records|] == records;
    records + [rec]
  }

  /** `UserProfile.objects.update_or_create(user=user, defaults=...)` with
      the height and weight as defaults: the user's profile, or a fresh one,
      gets both. */
  function StoreMeasurements(profiles: map<nat, UserProfile>, user: nat, w: real, h: real): (p: map<nat, UserProfile>)
    ensures p.Keys == profiles.Keys + {user}
    ensures p[user].heightCm == Some(h) && p[user].weightKg == Some(w)
    ensures user in profiles ==> p[user] == profiles[user].(heightCm := Some(h), weightKg := Some(w))
    ensures user !in profiles ==> p[user] == NewProfile().(heightCm := Some(h), weightKg := Some(w))
    ensures forall u :: u in profiles && u != user ==> p[u] == profiles[u]
  {
    var base := if user in profiles then profiles[user] else NewProfile();
    profiles[user := base.(heightCm := Some(h), weightKg := Some(w))]
  }

  /** After a successful submission the user's newest record is the one just
      written, and the history of every other user is unchanged. */
  lemma SubmitBmiBecomesNewest(records: seq<BmiRecord>, profiles: map<nat, UserProfile>, user: nat,
                               weight: Field<real>, height: Field<real>, other: nat)
    requires IdsAscending(records)
    requires SubmitBmi(records, profiles, user, weight, height).Ok?
    requires other != user
    ensures var s := SubmitBmi(records, profiles, user, weight, height).value;
      && NewestFirst(s.records, user) == [s.records[|records|]] + NewestFirst(records, user)
      && NewestFirst(s.records, other) == NewestFirst(records, other)
  {
    var s := SubmitBmi(records, profiles, user, weight, height).value;
    var rec := s.records[|records|];
    assert s.records == records + [rec];
    AppendedRecordIsNewest(records, rec, user, other);
  }

  lemma AppendedRecordIsNewest(records: seq<BmiRecord>, rec: BmiRecord, user: nat, other: nat)
    requires rec.user == Some(user) && other != user
    ensures NewestFirst(records + [rec], user) == [rec] + NewestFirst(records, user)
    ensures NewestFirst(records + [rec], other) == NewestFirst(records, other)
  {
    FilterAppend(records, rec, OwnedBy(user));
    FilterAppend(records, rec, OwnedBy(other));
    assert RecordsOf(records + [rec], user) == RecordsOf(records, user) + [rec];
    assert RecordsOf(records + [rec], other) == RecordsOf(records, other);
    ReverseAppend(RecordsOf(records, user), rec);
  }

  lemma ReverseAppend<T>(s: seq<T>, x: T)
    ensures Reverse(s + [x]) == [x] + Reverse(s)
  {
  }

  // ---------------------------------------------------------------------
  // Body fat
  // ---------------------------------------------------------------------

  /** The linear body-fat estimate; `genderFactor` is 1 for male, 0 for female. */
  function BodyFat(bmi: real, age: int, genderFactor: int): real {
    1.20 * bmi + 0.23 * (age as real) - 10.8 * (genderFactor as real) - 5.4
  }

  /** For one person, body fat moves exactly as BMI does. */
  lemma BodyFatFollowsBmi(b1: real, b2: real, age: int, genderFactor: int)
    ensures BodyFat(b1, age, genderFactor) < BodyFat(b2, age, genderFactor) <==> b1 < b2
    ensures BodyFat(b1, age, genderFactor) == BodyFat(b2, age, genderFactor) <==> b1 == b2
  {
  }

  /** BMI 22 at age 25, male: 26.4 + 5.75 - 10.8 - 5.4. */
  lemma BodyFatExample()
    ensures BodyFat(22.0, 25, 1) == 15.95
  {
  }

  /** `body_fat_view` on POST: blank fields default to height 0, weight 0,
      age 25 and gender 1 (male); a height that is not positive is refused. */
  function SubmitBodyFat(height: Field<real>, weight: Field<real>, age: Field<int>, gender: Field<int>):
    (r: Result<real, MetricError>)
    ensures r == Err(InvalidValues) <==>
      height.Malformed? || weight.Malformed? || age.Malformed? || gender.Malformed?
    ensures r == Err(HeightNotPositive) <==>
      !height.Malformed? && !weight.Malformed? && !age.Malformed? && !gender.Malformed?
      && Parse(height, 0.0).value <= 0.0
    ensures r.Ok? ==>
      var h := Parse(height, 0.0).value;
      h > 0.0 && r.value == BodyFat(BmiOf(Parse(weight, 0.0).value, h), Parse(age, 25).value, Parse(gender, 1).value)
  {
    match (Parse(height, 0.0), Parse(weight, 0.0), Parse(age, 25), Parse(gender, 1))
    case (Some(h), Some(w), Some(a), Some(g)) =>
      if h > 0.0 then Ok(BodyFat(BmiOf(w, h), a, g)) else Err(HeightNotPositive)
    case _ => Err(InvalidValues)
  }

  // ---------------------------------------------------------------------
  // Dashboard
  // ---------------------------------------------------------------------

  datatype Trend = Up | Down | Same

  /** Direction from the previous reading to the latest. */
  function TrendOf(prev: real, latest: real): (t: Trend)
    ensures t == Up <==> latest > prev
    ensures t == Down <==> latest < prev
    ensures t == Same <==> latest == prev
  {
    if latest > prev then Up else if latest < prev then Down else Same
  }

  /** The number of readings the dashboard charts. */
  const Window: nat := 7

  datatype DashboardView = DashboardView(
    latestBmi: real,
    latestBodyFat: real,
    bmiTrend: Trend,
    bodyFatTrend: Trend,
    bmiData: seq<real>,
    bodyFatData: seq<real>)

  /** `profile.age if profile and profile.age else 25`. */
  function DashboardAge(profile: Option<UserProfile>): (age: int)
    ensures age != 0
    ensures profile.Some? && profile.value.age.Some? && profile.value.age.value != 0 ==> age == profile.value.age.value
    ensures age == 25 || (profile.Some? && profile.value.age == Some(age))
  {
    if profile.Some? then EffectiveAge(profile.value.age) else 25
  }

  /** `1 if profile and profile.gender == 'male' else 0`. */
  function GenderFactor(profile: Option<UserProfile>): (factor: int)
    ensures factor == 0 || factor == 1
    ensures factor == 1 <==> profile.Some? && profile.value.gender == Some(Male)
  {
    if profile.Some? && profile.value.gender == Some(Male) then 1 else 0
  }

  function BmisOf(rs: seq<BmiRecord>): (r: seq<real>)
    ensures |r| == |rs| && forall i :: 0 <= i < |rs| ==> r[i] == rs[i].bmi
  {
    seq(|rs|, i requires 0 <= i < |rs| => rs[i].bmi)
  }

  function BodyFatsOf(rs: seq<BmiRecord>, age: int, genderFactor: int): (r: seq<real>)
    ensures |r| == |rs| && forall i :: 0 <= i < |rs| ==> r[i] == BodyFat(rs[i].bmi, age, genderFactor)
  {
    seq(|rs|, i requires 0 <= i < |rs| => BodyFat(rs[i].bmi, age, genderFactor))
  }

  /** The records the chart shows: `order_by('-id')[:7][::-1]`, which is
      the user's last seven records in chronological order. */
  function ChartEntries(records: seq<BmiRecord>, user: nat): (entries: seq<BmiRecord>)
    ensures entries == TakeLast(RecordsOf(records, user), Window)
  {
    NewestReversedIsSuffix(RecordsOf(records, user), Window);
    Reverse(Take(NewestFirst(records, user), Window))
  }

  /** The chart ends with the user's two latest records. */
  lemma ChartEndsAtLatest(records: seq<BmiRecord>, user: nat)
    ensures var mine, e := RecordsOf(records, user), ChartEntries(records, user);
      && (|mine| > 0 ==> |e| > 0 && e[|e| - 1] == mine[|mine| - 1])
      && (|mine| >= 2 ==> |e| >= 2 && e[|e| - 2] == mine[|mine| - 2])
  {
  }

  /** The dashboard's figures from the charted records, oldest first. */
  function Summarise(entries: seq<BmiRecord>, age: int, genderFactor: int): (v: DashboardView)
    ensures v.latestBmi == if |entries| > 0 then entries[|entries| - 1].bmi else DefaultBmi
    ensures v.latestBodyFat == BodyFat(v.latestBmi, age, genderFactor)
    ensures v.bmiTrend == if |entries| >= 2 then TrendOf(entries[|entries| - 2].bmi, entries[|entries| - 1].bmi) else Same
    ensures v.bodyFatTrend == v.bmiTrend
    ensures v.bmiData == BmisOf(entries) && v.bodyFatData == BodyFatsOf(entries, age, genderFactor)
  {
    if |entries| > 0 then
      var latest := entries[|entries| - 1].bmi;
      var fat := BodyFat(latest, age, genderFactor);
      var bmiTrend := if |entries| > 1 then TrendOf(entries[|entries| - 2].bmi, latest) else Same;
      var fatTrend :=
        if |entries| > 1 then
          BodyFatFollowsBmi(entries[|entries| - 2].bmi, latest, age, genderFactor);
          TrendOf(BodyFat(entries[|entries| - 2].bmi, age, genderFactor), fat)
        else Same;
      DashboardView(latest, fat, bmiTrend, fatTrend, BmisOf(entries), BodyFatsOf(entries, age, genderFactor))
    else
      DashboardView(DefaultBmi, BodyFat(DefaultBmi, age, genderFactor), Same, Same, [], [])
  }

  /** `dashboard`: the newest seven records, put back in chronological
      order, give the chart; the last two of them give the trends. Without
      records the BMI is 22 and both trends are `same`. Every stored record
      has a BMI, so the source's filter on a missing BMI keeps them all. */
  function Dashboard(records: seq<BmiRecord>, profile: Option<UserProfile>, user: nat): (v: DashboardView)
    ensures var mine := RecordsOf(records, user);
      var n := |mine|;
      && v.latestBmi == (if n > 0 then mine[n - 1].bmi else DefaultBmi)
      && v.latestBodyFat == BodyFat(v.latestBmi, DashboardAge(profile), GenderFactor(profile))
      && v.bmiTrend == (if n >= 2 then TrendOf(mine[n - 2].bmi, mine[n - 1].bmi) else Same)
      && v.bodyFatTrend == v.bmiTrend
    ensures var last := TakeLast(RecordsOf(records, user), Window);
      && v.bmiData == BmisOf(last)
      && v.bodyFatData == BodyFatsOf(last, DashboardAge(profile), GenderFactor(profile))
  {
    ChartEndsAtLatest(records, user);
    Summarise(ChartEntries(records, user), DashboardAge(profile), GenderFactor(profile))
  }
}

=== FILE: models.dfy ===
/** The records of the fitness planner (mainapp/models.py): profiles, BMI
    records, the workout and diet catalogs, user goals, and the optional
    per-day breakdown of a plan. Every choice set becomes a closed datatype;
    every nullable column becomes an `Option`. Tables are sequences in
    ascending primary-key order, except the daily rows (see `OrderedByDay`).
 */
module Models {
  import opened Wrappers
  import opened Query

  // ---------------------------------------------------------------------
  // Choice sets
  // ---------------------------------------------------------------------

  datatype DietType = Veg | NonVeg | Vegan
  datatype PlanType = Gain | Loss
  datatype Level = Beginner | Intermediate | Advanced
  datatype Gender = Male | Female

  /** Every status value the code stores. Only `Pending`, `Assigned` and
      `Completed` are declared choices; the views and the admin write
      `approved` and `rejected` as well. */
  datatype Status = Pending | Assigned | Completed | Approved | Rejected

  /** The string stored in the database for each value. */
  function DietCode(d: DietType): string {
    match d
    case Veg => "veg"
    case NonVeg => "nonveg"
    case Vegan => "vegan"
  }

  function LevelCode(l: Level): string {
    match l
    case Beginner => "beginner"
    case Intermediate => "intermediate"
    case Advanced => "advanced"
  }

  function StatusCode(s: Status): string {
    match s
    case Pending => "pending"
    case Assigned => "assigned"
    case Completed => "completed"
    case Approved => "approved"
    case Rejected => "rejected"
  }

  /** Reading a stored diet code back: the three declared codes and nothing else. */
  function ParseDiet(code: string): (r: Option<DietType>)
    ensures r.Some? <==> code == "veg" || code == "nonveg" || code == "vegan"
    ensures r.Some? ==> DietCode(r.value) == code
  {
    if code == "veg" then Some(Veg)
    else if code == "nonveg" then Some(NonVeg)
    else if code == "vegan" then Some(Vegan)
    else None
  }

  function ParseLevel(code: string): (r: Option<Level>)
    ensures r.Some? <==> code == "beginner" || code == "intermediate" || code == "advanced"
    ensures r.Some? ==> LevelCode(r.value) == code
  {
    if code == "beginner" then Some(Beginner)
    else if code == "intermediate" then Some(Intermediate)
    else if code == "advanced" then Some(Advanced)
    else None
  }

  /** Reading a stored status back: the five codes the code writes, of
      which only three are declared choices. */
  function ParseStatus(code: string): (r: Option<Status>)
    ensures r.Some? <==> code in {"pending", "assigned", "completed", "approved", "rejected"}
    ensures r.Some? ==> StatusCode(r.value) == code
  {
    if code == "pending" then Some(Pending)
    else if code == "assigned" then Some(Assigned)
    else if code == "completed" then Some(Completed)
    else if code == "approved" then Some(Approved)
    else if code == "rejected" then Some(Rejected)
    else None
  }

  /** Each code reads back as the value it was written from, so distinct
      values are stored as distinct strings. */
  lemma CodesRoundTrip(d: DietType, l: Level, s: Status)
    ensures ParseDiet(DietCode(d)) == Some(d)
    ensures ParseLevel(LevelCode(l)) == Some(l)
    ensures ParseStatus(StatusCode(s)) == Some(s)
  {
  }

  // ---------------------------------------------------------------------
  // Records
  // ---------------------------------------------------------------------

  /** A nullable number as Python's truth test sees it: `None` and `0` are false. */
  predicate Truthy(x: Option<real>) {
    x.Some? && x.value != 0.0
  }

  datatype UserProfile = UserProfile(
    age: Option<int>,
    gender: Option<Gender>,
    heightCm: Option<real>,
    weightKg: Option<real>,
    dietPreference: DietType,
    medicalIssue: Option<string>)

  /** `profile.age or 25`: a missing or zero age counts as 25. */
  function EffectiveAge(age: Option<int>): (a: int)
    ensures age.Some? && age.value != 0 ==> a == age.value
    ensures age.None? || age.value == 0 ==> a == 25
  {
    if age.Some? && age.value != 0 then age.value else 25
  }

  /** The profile a fresh row gets: every nullable column null and the diet
      preference at its default. */
  function NewProfile(): (p: UserProfile)
    ensures p.dietPreference == Veg
    ensures p.age.None? && p.gender.None? && p.heightCm.None? && p.weightKg.None? && p.medicalIssue.None?
  {
    UserProfile(None, None, None, None, Veg, None)
  }

  /** One BMI measurement. `bmi` is a non-nullable column. */
  datatype BmiRecord = BmiRecord(
    id: nat,
    user: Option<nat>,
    weightKg: real,
    heightCm: real,
    bmi: real,
    category: string)

  datatype WorkoutPlan = WorkoutPlan(
    id: nat,
    title: string,
    planType: PlanType,
    level: Level,
    description: string)

  datatype DietPlan = DietPlan(
    id: nat,
    title: string,
    planType: PlanType,
    dietType: DietType,
    calories: int,
    meals: string,
    medicalIssueSuitable: Option<string>)

  /** A user's goal. Dates are whole days counted from a fixed epoch. */
  datatype UserGoal = UserGoal(
    id: nat,
    user: nat,
    currentWeight: Option<real>,
    targetWeight: Option<real>,
    durationDays: Option<int>,
    dietType: Option<DietType>,
    status: Status,
    startDate: int,
    workoutPlan: Option<WorkoutPlan>,
    dietPlan: Option<DietPlan>)

  /** A goal as `UserGoal.objects.create` stores it: the fields given, the
      status at its default `pending`, and no plan assigned. */
  function NewGoal(id: nat, user: nat, currentWeight: Option<real>, targetWeight: Option<real>,
                   durationDays: Option<int>, dietType: Option<DietType>, startDate: int): (g: UserGoal)
    ensures g.status == Pending
    ensures g.workoutPlan.None? && g.dietPlan.None?
    ensures g.id == id && g.user == user && g.startDate == startDate
    ensures g.currentWeight == currentWeight && g.targetWeight == targetWeight
    ensures g.durationDays == durationDays && g.dietType == dietType
  {
    UserGoal(id, user, currentWeight, targetWeight, durationDays, dietType, Pending, startDate, None, None)
  }

  /** The derived `goal_type` property: undefined unless both weights are
      truthy, and then `gain` only for a strictly higher target. */
  function GoalType(g: UserGoal): (r: Option<PlanType>)
    ensures r.None? <==> !Truthy(g.currentWeight) || !Truthy(g.targetWeight)
    ensures r == Some(Gain) <==>
      Truthy(g.currentWeight) && Truthy(g.targetWeight) && g.targetWeight.value > g.currentWeight.value
    ensures r == Some(Loss) <==>
      Truthy(g.currentWeight) && Truthy(g.targetWeight) && g.targetWeight.value <= g.currentWeight.value
  {
    if Truthy(g.currentWeight) && Truthy(g.targetWeight) then
      Some(if g.targetWeight.value > g.currentWeight.value then Gain else Loss)
    else None
  }

  /** The goals a view reads: one user's, optionally only those in one status. */
  predicate Selected(g: UserGoal, user: nat, status: Option<Status>) {
    g.user == user && (status.None? || g.status == status.value)
  }

  /** `UserGoal.objects.filter(user=user[, status=s]).order_by('-id').first()`
      on a table in ascending id order: the last selected goal. */
  function LatestGoal(goals: seq<UserGoal>, user: nat, status: Option<Status>): (r: Option<UserGoal>)
    ensures r.None? <==> forall i :: 0 <= i < |goals| ==> !Selected(goals[i], user, status)
    ensures r.Some? ==>
      exists i :: 0 <= i < |goals| && goals[i] == r.value && Selected(goals[i], user, status)
        && forall j :: i < j < |goals| ==> !Selected(goals[j], user, status)
  {
    Last(goals, (g: UserGoal) => Selected(g, user, status))
  }

  // ---------------------------------------------------------------------
  // Per-day breakdown of a plan (DietDay, WorkoutDay)
  // ---------------------------------------------------------------------

  /** One day of a plan's breakdown: the plan's id, the 1-based day number
      and that day's content. */
  datatype DayEntry<C> = DayEntry(plan: nat, dayNumber: int, content: C)

  datatype DietMenu = DietMenu(
    breakfast: string,
    midMorningSnack: string,
    lunch: string,
    eveningSnack: string,
    dinner: string)

  type DietDay = DayEntry<DietMenu>
  type WorkoutDay = DayEntry<string>

  /** `unique_together = ('plan', 'day_number')`. */
  predicate UniquePerPlanDay<C>(t: seq<DayEntry<C>>) {
    forall i, j :: 0 <= i < j < |t| ==> t[i].plan != t[j].plan || t[i].dayNumber != t[j].dayNumber
  }

  /** `ordering = ['day_number']`. The daily tables are the one exception to
      holding a table in primary-key order: they are held in the order their
      model's default ordering reads them, so that every read sees rows by
      day number. `AddDay` keeps that order; the one read of them, the plan
      page's lookup of a day, finds the same row in any order because a
      (plan, day number) pair names at most one row. */
  predicate OrderedByDay<C>(t: seq<DayEntry<C>>) {
    forall i, j :: 0 <= i < j < |t| ==> t[i].dayNumber <= t[j].dayNumber
  }

  /** Adding a day row: refused when the (plan, day number) pair is taken,
      otherwise placed after every row with a day number no greater. */
  function AddDay<C(==)>(t: seq<DayEntry<C>>, e: DayEntry<C>): (r: Option<seq<DayEntry<C>>>)
    requires UniquePerPlanDay(t) && OrderedByDay(t)
    ensures r.None? <==> exists i :: 0 <= i < |t| && t[i].plan == e.plan && t[i].dayNumber == e.dayNumber
    ensures r.Some? ==> UniquePerPlanDay(r.value) && OrderedByDay(r.value)
    ensures r.Some? ==> multiset(r.value) == multiset(t) + multiset{e}
  {
    if exists i :: 0 <= i < |t| && t[i].plan == e.plan && t[i].dayNumber == e.dayNumber then None
    else
      var r := InsertByDay(t, e);
      var k :| 0 <= k <= |t| && r == t[..k] + [e] + t[k..];
      UniqueAfterInsert(t, e, k);
      Some(r)
  }

  /** Where a row with day number `day` goes: before the first row with a
      larger day number. */
  function InsertPosition<C>(t: seq<DayEntry<C>>, day: int): (k: nat)
    requires OrderedByDay(t)
    ensures k <= |t|
    ensures forall i :: 0 <= i < k ==> t[i].dayNumber <= day
    ensures forall i :: k <= i < |t| ==> day < t[i].dayNumber
  {
    if |t| == 0 || day < t[0].dayNumber then 0
    else 1 + InsertPosition(t[1..], day)
  }

  /** The row lands at its position by day number and every other row keeps
      its relative order. */
  function InsertByDay<C(==)>(t: seq<DayEntry<C>>, e: DayEntry<C>): (r: seq<DayEntry<C>>)
    requires OrderedByDay(t)
    ensures OrderedByDay(r)
    ensures multiset(r) == multiset(t) + multiset{e}
    ensures exists k :: 0 <= k <= |t| && r == t[..k] + [e] + t[k..]
  {
    var k := InsertPosition(t, e.dayNumber);
    OrderedAfterInsert(t, e, k);
    assert t == t[..k] + t[k..];
    t[..k] + [e] + t[k..]
  }

  lemma OrderedAfterInsert<C>(t: seq<DayEntry<C>>, e: DayEntry<C>, k: nat)
    requires OrderedByDay(t) && k <= |t|
    requires forall i :: 0 <= i < k ==> t[i].dayNumber <= e.dayNumber
    requires forall i :: k <= i < |t| ==> e.dayNumber < t[i].dayNumber
    ensures OrderedByDay(t[..k] + [e] + t[k..])
  {
    var r := t[..k] + [e] + t[k..];
    forall i, j | 0 <= i < j < |r|
      ensures r[i].dayNumber <= r[j].dayNumber
    {
      var ti := if i < k then i else i - 1;
      var tj := if j < k then j else j - 1;
      if i != k && j != k {
        assert r[i] == t[ti] && r[j] == t[tj];
      } else if i == k {
        assert r[j] == t[tj];
      } else {
        assert r[i] == t[ti];
      }
    }
  }

  lemma UniqueAfterInsert<C>(t: seq<DayEntry<C>>, e: DayEntry<C>, k: nat)
    requires k <= |t|
    requires UniquePerPlanDay(t)
    requires forall i :: 0 <= i < |t| ==> t[i].plan != e.plan || t[i].dayNumber != e.dayNumber
    ensures UniquePerPlanDay(t[..k] + [e] + t[k..])
  {
    var r := t[..k] + [e] + t[k..];
    forall i, j | 0 <= i < j < |r|
      ensures r[i].plan != r[j].plan || r[i].dayNumber != r[j].dayNumber
    {
      var ti := if i < k then i else i - 1;
      var tj := if j < k then j else j - 1;
      if i != k && j != k {
        assert r[i] == t[ti] && r[j] == t[tj] && ti < tj;
      } else if i == k {
        assert r[j] == t[tj];
      } else {
        assert r[i] == t[ti];
      }
    }
  }

  // ---------------------------------------------------------------------
  // The store
  // ---------------------------------------------------------------------

  /** The tables the views read and write, keyed as the ORM keys them;
      profiles are one per user. */
  datatype Store = Store(
    goals: seq<UserGoal>,
    profiles: map<nat, UserProfile>,
    records: seq<BmiRecord>,
    workouts: seq<WorkoutPlan>,
    diets: seq<DietPlan>,
    workoutDays: seq<WorkoutDay>,
    dietDays: seq<DietDay>)
}

=== FILE: query.dfy ===
/** The shapes of ORM query the views use, read over a table held as a
    sequence in primary-key order:

    - `filter(...)`                     is `Filter`,
    - `filter(...).first()`             is `First` (an unordered queryset is
                                        read in primary-key order),
    - `filter(...).order_by('-id')`     is `Reverse(Filter(...))`,
    - `filter(...).order_by('-id').first()` is `Last`,
    - `qs[:n]`                          is `Take`.
 */
module Query {
  import opened Wrappers

  /** The earliest element satisfying `p`, or `None` when there is none. */
  function First<T>(s: seq<T>, p: T -> bool): (r: Option<T>)
    ensures r.None? <==> forall i :: 0 <= i < |s| ==> !p(s[i])
    ensures r.Some? ==> exists i :: 0 <= i < |s| && s[i] == r.value && p(s[i]) && forall j :: 0 <= j < i ==> !p(s[j])
  {
    if |s| == 0 then None
    else if p(s[0]) then Some(s[0])
    else
      var r := First(s[1..], p);
      assert forall i :: 1 <= i < |s| ==> s[i] == s[1..][i - 1];
      r
  }

  /** The elements satisfying `p`, in their original order. */
  function Filter<T>(s: seq<T>, p: T -> bool): (r: seq<T>)
    ensures |r| <= |s|
    ensures forall i :: 0 <= i < |r| ==> p(r[i])
    ensures forall i :: 0 <= i < |r| ==> r[i] in s
    ensures forall i :: 0 <= i < |s| && p(s[i]) ==> s[i] in r
    ensures multiset(r) <= multiset(s)
  {
    if |s| == 0 then []
    else
      assert s == [s[0]] + s[1..];
      if p(s[0]) then [s[0]] + Filter(s[1..], p) else Filter(s[1..], p)
  }

  /** A filter keeps nothing exactly when no element satisfies `p`. */
  lemma {:induction false} FilterEmpty<T>(s: seq<T>, p: T -> bool)
    ensures Filter(s, p) == [] <==> forall i :: 0 <= i < |s| ==> !p(s[i])
  {
    if |s| > 0 {
      FilterEmpty(s[1..], p);
      assert forall i :: 1 <= i < |s| ==> s[i] == s[1..][i - 1];
    }
  }

  /** Appending a row extends the filtered view by that row when it matches
      and leaves it alone otherwise: the filter keeps the table's order. */
  lemma {:induction false} FilterAppend<T>(s: seq<T>, x: T, p: T -> bool)
    ensures Filter(s + [x], p) == Filter(s, p) + (if p(x) then [x] else [])
  {
    if |s| == 0 {
      assert s + [x] == [x];
    } else {
      assert (s + [x])[1..] == s[1..] + [x];
      FilterAppend(s[1..], x, p);
    }
  }

  /** Two conditions that agree on every element select the same rows. */
  lemma {:induction false} FilterSame<T>(s: seq<T>, p: T -> bool, q: T -> bool)
    requires forall x :: p(x) == q(x)
    ensures Filter(s, p) == Filter(s, q)
  {
    if |s| != 0 {
      FilterSame(s[1..], p, q);
    }
  }

  function Reverse<T>(s: seq<T>): (r: seq<T>)
    ensures |r| == |s|
    ensures forall i :: 0 <= i < |s| ==> r[i] == s[|s| - 1 - i]
  {
    if |s| == 0 then [] else Reverse(s[1..]) + [s[0]]
  }

  /** The first `n` elements, or all of them when there are fewer (Python's `s[:n]`). */
  function Take<T>(s: seq<T>, n: nat): (r: seq<T>)
    ensures |r| == if n < |s| then n else |s|
    ensures r <= s
  {
    if n < |s| then s[..n] else s
  }

  /** The last `n` elements, or all of them when there are fewer (Python's `s[-n:]`). */
  function TakeLast<T>(s: seq<T>, n: nat): (r: seq<T>)
    ensures |r| == if n < |s| then n else |s|
    ensures forall i :: 0 <= i < |r| ==> r[i] == s[|s| - |r| + i]
  {
    if n < |s| then s[|s| - n..] else s
  }

  /** The latest element satisfying `p`: `filter(...).order_by('-id').first()`
      on a table in ascending primary-key order. */
  function Last<T>(s: seq<T>, p: T -> bool): (r: Option<T>)
    ensures r.None? <==> forall i :: 0 <= i < |s| ==> !p(s[i])
    ensures r.Some? ==> exists i :: 0 <= i < |s| && s[i] == r.value && p(s[i]) && forall j :: i < j < |s| ==> !p(s[j])
  {
    var rev := Reverse(s);
    var r := First(rev, p);
    assert forall i :: 0 <= i < |s| ==> s[i] == rev[|s| - 1 - i];
    r
  }

  /** Reading the newest `n` in descending order and reversing them gives the
      last `n` in ascending order: `order_by('-id')[:n][::-1]`. */
  lemma NewestReversedIsSuffix<T>(s: seq<T>, n: nat)
    ensures Reverse(Take(Reverse(s), n)) == TakeLast(s, n)
  {
    var lhs := Reverse(Take(Reverse(s), n));
    var rhs := TakeLast(s, n);
    assert |lhs| == |rhs|;
    forall i | 0 <= i < |lhs|
      ensures lhs[i] == rhs[i]
    {
      var t := Take(Reverse(s), n);
      assert lhs[i] == t[|t| - 1 - i];
      assert t[|t| - 1 - i] == Reverse(s)[|t| - 1 - i];
    }
  }
}

=== FILE: schedule.dfy ===
/** The schedule expander: the day-by-day schedule the `weight_gain` and
    `weight_loss` views build for a user's latest assigned goal, and the
    per-day lookup of `user_plan_view` (mainapp/views.py). Dates are whole
    days; the start date is the goal's `start_date`, which is set when the
    goal is created and is never empty.
 */
module Schedule {
  import opened Wrappers
  import opened Query
  import opened Models
  import opened Assign

  // ---------------------------------------------------------------------
  // weight_gain / weight_loss
  // ---------------------------------------------------------------------

  /** One day of the schedule. */
  datatype ScheduleDay = ScheduleDay(date: int, isWorkout: bool, workout: Option<WorkoutPlan>, meals: seq<DietPlan>)

  const DefaultDuration: nat := 30

  /** The meals served each day: at most this many diet plans. */
  const MealsPerDay: nat := 2

  /** `range(goal.duration_days or 30)`: a missing or zero duration means 30
      days; a negative one means none. */
  function DayCount(duration: Option<int>): (n: nat)
    ensures duration.None? || duration.value == 0 ==> n == DefaultDuration
    ensures duration.Some? && duration.value > 0 ==> n == duration.value
    ensures duration.Some? && duration.value < 0 ==> n == 0
  {
    if duration.None? || duration.value == 0 then DefaultDuration
    else if duration.value < 0 then 0
    else duration.value
  }

  predicate OfKind(kind: PlanType, w: WorkoutPlan) {
    w.planType == kind
  }

  /** The workout of every workout day: `workouts.first()` over the plans of
      the view's kind, at any level. */
  function DayWorkout(kind: PlanType, workouts: seq<WorkoutPlan>): (w: Option<WorkoutPlan>)
    ensures w.None? <==> forall i :: 0 <= i < |workouts| ==> workouts[i].planType != kind
    ensures w.Some? ==>
      exists i :: 0 <= i < |workouts| && workouts[i] == w.value && workouts[i].planType == kind
        && forall j :: 0 <= j < i ==> workouts[j].planType != kind
  {
    First(workouts, (w: WorkoutPlan) => OfKind(kind, w))
  }

  /** The meals of every day: `diets[:2]` over the diet plans of the view's
      kind and the goal's diet type. */
  function DayMeals(kind: PlanType, dietType: Option<DietType>, diets: seq<DietPlan>): (m: seq<DietPlan>)
    ensures |m| <= MealsPerDay
    ensures forall k :: 0 <= k < |m| ==> m[k] in diets && DietMatches(kind, dietType, m[k])
    ensures m <= Filter(diets, (p: DietPlan) => DietMatches(kind, dietType, p))
    ensures |m| < MealsPerDay ==> m == Filter(diets, (p: DietPlan) => DietMatches(kind, dietType, p))
  {
    Take(Filter(diets, (p: DietPlan) => DietMatches(kind, dietType, p)), MealsPerDay)
  }

  /** Build the schedule of `goal` as the view for `kind` shows it: one
      entry per day from the start date, a workout every other day starting
      with the first, and the same meals every day. */
  method BuildSchedule(kind: PlanType, goal: UserGoal, workouts: seq<WorkoutPlan>, diets: seq<DietPlan>)
    returns (schedule: seq<ScheduleDay>)
    ensures |schedule| == DayCount(goal.durationDays)
    ensures forall i :: 0 <= i < |schedule| ==> schedule[i].date == goal.startDate + i
    ensures forall i :: 0 <= i < |schedule| ==> (schedule[i].isWorkout <==> i % 2 == 0)
    ensures forall i :: 0 <= i < |schedule| ==>
      (schedule[i].workout.Some? <==> i % 2 == 0 && exists j :: 0 <= j < |workouts| && workouts[j].planType == kind)
    ensures forall i :: 0 <= i < |schedule| && schedule[i].workout.Some? ==>
      schedule[i].workout.value in workouts && schedule[i].workout.value.planType == kind
      && schedule[i].workout == DayWorkout(kind, workouts)
    ensures forall i :: 0 <= i < |schedule| ==> schedule[i].meals == DayMeals(kind, goal.dietType, diets)
  {
    var n := DayCount(goal.durationDays);
    var first := DayWorkout(kind, workouts);
    var meals := DayMeals(kind, goal.dietType, diets);
    schedule := [];
    var i := 0;
    while i < n
      invariant 0 <= i <= n
      invariant |schedule| == i
      invariant forall k :: 0 <= k < i ==> schedule[k].date == goal.startDate + k
      invariant forall k :: 0 <= k < i ==> (schedule[k].isWorkout <==> k % 2 == 0)
      invariant forall k :: 0 <= k < i ==> schedule[k].workout == (if k % 2 == 0 then first else None)
      invariant forall k :: 0 <= k < i ==> schedule[k].meals == meals
    {
      var isWorkout := i % 2 == 0;
      var day := ScheduleDay(goal.startDate + i, isWorkout, if isWorkout && first.Some? then first else None, meals);
      schedule := schedule + [day];
      i := i + 1;
    }
  }

  /** How many entries of a schedule are workout days. */
  function WorkoutDays(schedule: seq<ScheduleDay>): (n: nat)
    ensures n <= |schedule|
  {
    if |schedule| == 0 then 0
    else WorkoutDays(schedule[..|schedule| - 1]) + (if schedule[|schedule| - 1].isWorkout then 1 else 0)
  }

  /** Alternating from a workout day, `n` days hold ⌈n/2⌉ workout days. */
  lemma {:induction false} AlternatingWorkoutDays(schedule: seq<ScheduleDay>)
    requires forall i :: 0 <= i < |schedule| ==> (schedule[i].isWorkout <==> i % 2 == 0)
    ensures WorkoutDays(schedule) == (|schedule| + 1) / 2
  {
    if |schedule| > 0 {
      var init := schedule[..|schedule| - 1];
      assert forall i :: 0 <= i < |init| ==> init[i] == schedule[i];
      AlternatingWorkoutDays(init);
    }
  }

  /** A goal whose schedule runs thirty days (no duration, 0 or 30) gets
      fifteen workout days and fifteen rest days. */
  method ThirtyDaySchedule(kind: PlanType, goal: UserGoal, workouts: seq<WorkoutPlan>, diets: seq<DietPlan>)
    returns (workoutDays: nat, restDays: nat)
    requires DayCount(goal.durationDays) == 30
    ensures workoutDays == 15 && restDays == 15
  {
    var schedule := BuildSchedule(kind, goal, workouts, diets);
    AlternatingWorkoutDays(schedule);
    workoutDays := WorkoutDays(schedule);
    restDays := |schedule| - workoutDays;
  }

  /** The page the view shows: the schedule of the user's latest goal in
      status `assigned`, or the goal form (`None`) when there is none. */
  method PlanPage(kind: PlanType, goals: seq<UserGoal>, user: nat, workouts: seq<WorkoutPlan>, diets: seq<DietPlan>)
    returns (page: Option<seq<ScheduleDay>>)
    ensures page.None? <==> forall i :: 0 <= i < |goals| ==> !(goals[i].user == user && goals[i].status == Assigned)
    ensures page.Some? ==>
      var g := LatestGoal(goals, user, Some(Assigned)).value;
      && g.user == user && g.status == Assigned
      && |page.value| == DayCount(g.durationDays)
      && (forall i :: 0 <= i < |page.value| ==> page.value[i].date == g.startDate + i)
      && (forall i :: 0 <= i < |page.value| ==> (page.value[i].isWorkout <==> i % 2 == 0))
      && (forall i :: 0 <= i < |page.value| ==>
            page.value[i].workout == if i % 2 == 0 then DayWorkout(kind, workouts) else None)
      && (forall i :: 0 <= i < |page.value| ==> page.value[i].meals == DayMeals(kind, g.dietType, diets))
  {
    match LatestGoal(goals, user, Some(Assigned))
    case None =>
      page := None;
    case Some(g) =>
      var schedule := BuildSchedule(kind, g, workouts, diets);
      page := Some(schedule);
  }

  // ---------------------------------------------------------------------
  // user_plan_view
  // ---------------------------------------------------------------------

  /** One day of the fine-grained plan page. */
  datatype PlanDay = PlanDay(dayNumber: int, date: int, diet: Option<DietDay>, workout: Option<WorkoutDay>)

  /** How `get_object_or_404(UserGoal, user=..., status='assigned')` and
      `range(goal.duration_days)` can fail. */
  datatype PlanViewError = NoAssignedGoal | SeveralAssignedGoals | NoDuration

  predicate EntryFor<C>(plan: nat, day: int, e: DayEntry<C>) {
    e.plan == plan && e.dayNumber == day
  }

  /** `next((d for d in days if d.day_number == n), None)` over the rows of
      the goal's plan, or nothing when the goal has no plan. */
  function DayOf<C>(t: seq<DayEntry<C>>, plan: Option<nat>, day: int): (r: Option<DayEntry<C>>)
    ensures r.Some? <==> plan.Some? && exists i :: 0 <= i < |t| && EntryFor(plan.value, day, t[i])
    ensures r.Some? ==> r.value in t && EntryFor(plan.value, day, r.value)
  {
    if plan.None? then None
    else First(t, (e: DayEntry<C>) => EntryFor(plan.value, day, e))
  }

  /** With one row per (plan, day number), the lookup finds that row: the
      row found is the only row for the day. */
  lemma DayOfIsUnique<C>(t: seq<DayEntry<C>>, plan: nat, day: int)
    requires UniquePerPlanDay(t)
    ensures forall i :: 0 <= i < |t| && EntryFor(plan, day, t[i]) ==> DayOf(t, Some(plan), day) == Some(t[i])
  {
    forall i | 0 <= i < |t| && EntryFor(plan, day, t[i])
      ensures DayOf(t, Some(plan), day) == Some(t[i])
    {
      var r := DayOf(t, Some(plan), day);
      var k :| 0 <= k < |t| && t[k] == r.value && EntryFor(plan, day, t[k])
        && forall j :: 0 <= j < k ==> !EntryFor(plan, day, t[j]);
      assert !(k < i) && !(i < k);
    }
  }

  function PlanId<P>(plan: Option<P>, id: P -> nat): Option<nat> {
    if plan.None? then None else Some(id(plan.value))
  }

  /** `user_plan_view`: the user's one assigned goal, one entry per day of
      its duration numbered from 1, each with that day's diet and workout
      rows of the goal's own plans. */
  function UserPlanView(goals: seq<UserGoal>, user: nat, dietDays: seq<DietDay>, workoutDays: seq<WorkoutDay>):
    (r: Result<seq<PlanDay>, PlanViewError>)
    ensures var current := Filter(goals, (g: UserGoal) => Selected(g, user, Some(Assigned)));
      && (r == Err(NoAssignedGoal) <==> |current| == 0)
      && (r == Err(SeveralAssignedGoals) <==> |current| > 1)
      && (r == Err(NoDuration) <==> |current| == 1 && current[0].durationDays.None?)
      && (r.Ok? ==>
            var g := current[0];
            var n := g.durationDays.value;
            && |r.value| == (if n < 0 then 0 else n)
            && forall i :: 0 <= i < |r.value| ==>
                 && r.value[i].dayNumber == i + 1
                 && r.value[i].date == g.startDate + i
                 && r.value[i].diet == DayOf(dietDays, PlanId(g.dietPlan, (p: DietPlan) => p.id), i + 1)
                 && r.value[i].workout == DayOf(workoutDays, PlanId(g.workoutPlan, (p: WorkoutPlan) => p.id), i + 1))
  {
    var current := Filter(goals, (g: UserGoal) => Selected(g, user, Some(Assigned)));
    if |current| == 0 then Err(NoAssignedGoal)
    else if |current| > 1 then Err(SeveralAssignedGoals)
    else
      var g := current[0];
      if g.durationDays.None? then Err(NoDuration)
      else
        var n := if g.durationDays.value < 0 then 0 else g.durationDays.value;
        var dietPlan := PlanId(g.dietPlan, (p: DietPlan) => p.id);
        var workoutPlan := PlanId(g.workoutPlan, (p: WorkoutPlan) => p.id);
        Ok(seq(n, i requires 0 <= i < n =>
          PlanDay(i + 1, g.startDate + i, DayOf(dietDays, dietPlan, i + 1), DayOf(workoutDays, workoutPlan, i + 1))))
  }
}

=== FILE: text.dfy ===
/** The string operations the source applies to status and category names:
    Python's `str.lower()` and `str.capitalize()`, restricted to ASCII
    letters (every name they are applied to here is ASCII).
 */
module Text {

  predicate IsUpperChar(c: char) { 'A' <= c <= 'Z' }

  predicate IsLowerChar(c: char) { 'a' <= c <= 'z' }

  function LowerChar(c: char): (r: char)
    ensures !IsUpperChar(r)
    ensures IsUpperChar(c) ==> r as int == c as int + 32
    ensures !IsUpperChar(c) ==> r == c
  {
    if IsUpperChar(c) then (c as int + 32) as char else c
  }

  function UpperChar(c: char): (r: char)
    ensures !IsLowerChar(r)
    ensures IsLowerChar(c) ==> r as int == c as int - 32
    ensures !IsLowerChar(c) ==> r == c
  {
    if IsLowerChar(c) then (c as int - 32) as char else c
  }

  /** `s.lower()`: every character lowered, nothing else changed. */
  function Lower(s: string): (r: string)
    ensures |r| == |s|
    ensures forall i :: 0 <= i < |s| ==> r[i] == LowerChar(s[i])
  {
    if |s| == 0 then "" else [LowerChar(s[0])] + Lower(s[1..])
  }

  /** `s.capitalize()`: the first character raised, the rest lowered. */
  function Capitalize(s: string): (r: string)
    ensures |r| == |s|
    ensures |s| > 0 ==> r[0] == UpperChar(s[0])
    ensures |s| > 0 ==> r[1..] == Lower(s[1..])
  {
    if |s| == 0 then "" else [UpperChar(s[0])] + Lower(s[1..])
  }

  /** A string with no upper-case letter is its own lower-case form. */
  lemma LowerOfLowered(s: string)
    requires forall i :: 0 <= i < |s| ==> !IsUpperChar(s[i])
    ensures Lower(s) == s
  {
  }

  /** Lowering twice is lowering once. */
  lemma LowerIdempotent(s: string)
    ensures Lower(Lower(s)) == Lower(s)
  {
    LowerOfLowered(Lower(s));
  }

  /** Lowering a capitalized string is lowering the original. */
  lemma LowerOfCapitalize(s: string)
    ensures Lower(Capitalize(s)) == Lower(s)
  {
    var c := Capitalize(s);
    forall i | 0 <= i < |s|
      ensures Lower(c)[i] == Lower(s)[i]
    {
      if i > 0 {
        assert c[i] == c[1..][i - 1] == Lower(s[1..])[i - 1] == LowerChar(s[i]);
      }
    }
  }
}

=== FILE: workflow.dfy ===
/** The life of a goal across every page that writes one: the two intake
    forms, the staff goal dashboard, the bulk approve and reject actions and
    the auto-assign page. Whatever order these run in, no goal is ever
    moved to `assigned`, the one status the plan pages read.
 */
module Workflow {
  import opened Wrappers
  import opened Models
  import opened Goals
  import opened Admin
  import Schedule

  /** One request that writes goals. `SubmitGain` is the gain page as
      written; `SubmitGainCorrected` is the same page with the form's fields
      read as the form means them, so that both versions are covered. */
  datatype Event =
    | SubmitGain(user: nat, gainForm: GainForm, today: int)
    | SubmitGainCorrected(user: nat, gainForm: GainForm, today: int)
    | SubmitLoss(user: nat, lossForm: LossForm, today: int)
    | DashboardPost(goalId: nat, action: Option<string>)
    | ApproveSelected(selected: set<nat>)
    | RejectSelected(selected: set<nat>)
    | AutoAssignPage(goalId: nat)

  /** The store after an intake: unchanged unless a goal was submitted. */
  function AfterIntake(store: Store, r: IntakeOutcome): Store {
    if r.Submitted? then store.(goals := r.goals, profiles := r.profiles) else store
  }

  /** The store after one request; a request that fails writes nothing,
      except the profile the auto-assign page creates first. */
  function Step(store: Store, e: Event): Store
    requires GoalIdsAscending(store.goals)
  {
    match e
    case SubmitGain(user, form, today) =>
      AfterIntake(store, GainIntakeAsWritten(store.goals, store.profiles, user, form, today))
    case SubmitGainCorrected(user, form, today) =>
      AfterIntake(store, GainIntake(store.goals, store.profiles, user, form, today))
    case SubmitLoss(user, form, today) => AfterIntake(store, LossIntake(store.goals, store.profiles, user, form, today))
    case DashboardPost(goalId, action) =>
      var r := GoalDashboardPost(store, goalId, action);
      if r.Ok? then store.(goals := r.value) else store
    case ApproveSelected(selected) => store.(goals := ApproveGoals(store.goals, selected))
    case RejectSelected(selected) => store.(goals := RejectGoals(store.goals, selected))
    case AutoAssignPage(goalId) => After(store, ProcessAutoAssign(store, goalId))
  }

  /** No goal is `assigned`. */
  predicate NoneAssigned(goals: seq<UserGoal>) {
    forall i :: 0 <= i < |goals| ==> goals[i].status != Assigned
  }

  /** A pending goal has no plans yet. */
  predicate PendingUnplanned(goals: seq<UserGoal>) {
    forall i :: 0 <= i < |goals| && goals[i].status == Pending ==> goals[i].workoutPlan.None? && goals[i].dietPlan.None?
  }

  predicate Invariant(store: Store) {
    GoalIdsAscending(store.goals) && NoneAssigned(store.goals) && PendingUnplanned(store.goals)
  }

  /** Replacing one goal by one with the same key that is neither assigned
      nor pending with plans keeps the invariant. */
  lemma ReplaceKeepsInvariant(goals: seq<UserGoal>, goals': seq<UserGoal>, k: nat)
    requires GoalIdsAscending(goals) && NoneAssigned(goals) && PendingUnplanned(goals)
    requires k < |goals| && |goals'| == |goals|
    requires forall j :: 0 <= j < |goals| && j != k ==> goals'[j] == goals[j]
    requires goals'[k].id == goals[k].id && goals'[k].status != Assigned
    requires goals'[k].status == Pending ==> goals'[k].workoutPlan.None? && goals'[k].dietPlan.None?
    ensures GoalIdsAscending(goals') && NoneAssigned(goals') && PendingUnplanned(goals')
  {
    assert forall i :: 0 <= i < |goals| ==> goals'[i].id == goals[i].id;
  }

  /** An intake appends one fresh pending goal with no plans. */
  lemma IntakeKeepsInvariant(store: Store, e: Event)
    requires Invariant(store)
    requires e.SubmitGain? || e.SubmitGainCorrected? || e.SubmitLoss?
    ensures Invariant(Step(store, e))
  {
    var r :=
      if e.SubmitGain? then GainIntakeAsWritten(store.goals, store.profiles, e.user, e.gainForm, e.today)
      else if e.SubmitGainCorrected? then GainIntake(store.goals, store.profiles, e.user, e.gainForm, e.today)
      else LossIntake(store.goals, store.profiles, e.user, e.lossForm, e.today);
    assert Step(store, e) == AfterIntake(store, r);
    if r.Submitted? {
      AppendKeepsInvariant(store, r.goals, r.profiles, e.user, e.today);
    }
  }

  /** Appending one fresh pending goal with no plans keeps the invariant. */
  lemma AppendKeepsInvariant(store: Store, goals': seq<UserGoal>, profiles': map<nat, UserProfile>, user: nat, today: int)
    requires Invariant(store)
    requires GoalIdsAscending(goals')
    requires |goals'| == |store.goals| + 1 && goals'[..|store.goals|] == store.goals
    requires FreshGoalOf(goals'[|store.goals|], user, today)
    ensures Invariant(store.(goals := goals', profiles := profiles'))
  {
    var n := |store.goals|;
    assert forall i :: 0 <= i < n ==> goals'[i] == goals'[..n][i] == store.goals[i];
  }

  /** A dashboard action changes one goal, never to `assigned`, and a goal
      it leaves pending it leaves untouched. */
  lemma DashboardKeepsInvariant(store: Store, goalId: nat, action: Option<string>)
    requires Invariant(store)
    ensures Invariant(Step(store, DashboardPost(goalId, action)))
  {
    var r := GoalDashboardPost(store, goalId, action);
    if r.Ok? {
      var k :| 0 <= k < |store.goals| && store.goals[k].id == goalId
        && SameGoalData(r.value[k], store.goals[k])
        && Ok(r.value[k]) == ApplyAction(store.goals[k], ParseAction(action), OwnerProfile(store, store.goals[k]),
                                         store.records, store.workouts, store.diets)
        && forall j :: 0 <= j < |store.goals| && j != k ==> r.value[j] == store.goals[j];
      DashboardNeverAssigns(store.goals[k], ParseAction(action), OwnerProfile(store, store.goals[k]),
                            store.records, store.workouts, store.diets);
      ReplaceKeepsInvariant(store.goals, r.value, k);
    }
  }

  /** Bulk actions set approved or rejected on the selection. */
  lemma BulkKeepsInvariant(store: Store, selected: set<nat>, s: Status)
    requires Invariant(store)
    requires s == Approved || s == Rejected
    ensures Invariant(store.(goals := BulkSetStatus(store.goals, selected, s)))
  {
    var goals' := BulkSetStatus(store.goals, selected, s);
    assert forall i :: 0 <= i < |goals'| ==> goals'[i].id == store.goals[i].id;
  }

  /** The auto-assign page approves the one goal it changes. */
  lemma AutoAssignKeepsInvariant(store: Store, goalId: nat)
    requires Invariant(store)
    ensures Invariant(Step(store, AutoAssignPage(goalId)))
  {
    var r := ProcessAutoAssign(store, goalId);
    assert Step(store, AutoAssignPage(goalId)).goals == r.goals;
    if r.failure.None? {
      var k := FindGoal(store.goals, goalId).value;
      ReplaceKeepsInvariant(store.goals, r.goals, k);
    } else {
      assert r.goals == store.goals;
    }
  }

  /** Every request keeps the invariant. */
  lemma StepKeepsInvariant(store: Store, e: Event)
    requires Invariant(store)
    ensures Invariant(Step(store, e))
  {
    match e
    case SubmitGain(_, _, _) => IntakeKeepsInvariant(store, e);
    case SubmitGainCorrected(_, _, _) => IntakeKeepsInvariant(store, e);
    case SubmitLoss(_, _, _) => IntakeKeepsInvariant(store, e);
    case DashboardPost(goalId, action) => DashboardKeepsInvariant(store, goalId, action);
    case ApproveSelected(selected) => BulkKeepsInvariant(store, selected, Approved);
    case RejectSelected(selected) => BulkKeepsInvariant(store, selected, Rejected);
    case AutoAssignPage(goalId) => AutoAssignKeepsInvariant(store, goalId);
  }

  /** The store after a sequence of requests, in order. */
  function Run(store: Store, events: seq<Event>): (r: Store)
    requires Invariant(store)
    ensures Invariant(r)
    decreases |events|
  {
    if |events| == 0 then store
    else
      StepKeepsInvariant(store, events[0]);
      Run(Step(store, events[0]), events[1..])
  }

  /** From a store with no assigned goal, after any requests, the gain and
      loss pages still show the form, never a schedule, and the day-by-day
      plan page still finds no goal, for every user. */
  lemma PlanPagesNeverReached(store: Store, events: seq<Event>, user: nat)
    requires Invariant(store)
    ensures var s := Run(store, events);
      && LatestGoal(s.goals, user, Some(Assigned)).None?
      && Schedule.UserPlanView(s.goals, user, s.dietDays, s.workoutDays) == Err(Schedule.NoAssignedGoal)
  {
    var s := Run(store, events);
    Query.FilterEmpty(s.goals, (g: UserGoal) => Selected(g, user, Some(Assigned)));
  }
}

=== FILE: wrappers.dfy ===
/** Optional values and error-carrying results.

    `Option` stands for a nullable column or a query that may find nothing
    (`.first()` returning `None`); `Result` stands for a view that either
    completes or stops with one of the errors the source raises or reports.
 */
module Wrappers {

  datatype Option<+T> = None | Some(value: T)

  datatype Result<+T, +E> = Ok(value: T) | Err(error: E)
}
